=== FILE: README.md ===
# NetworkTables core in Dafny

A model of three parts of a NetworkTables implementation in C#:

- **WireEncoder.** This is the byte encoder of the NetworkTables wire protocol, revisions 2.0 (`0x0200`) and 3.0 (`0x0300`). It covers:
  - fixed-width big-endian integers and IEEE-754 double patterns;
  - unsigned LEB128;
  - type tags;
  - length-prefixed strings;
  - values and arrays, and their sizes;
  - the encoder's sticky error and `Reset`.

  The encoder's own source is not part of this model. Its byte output follows `TestWireEncoder.cs`, whose expected byte vectors are proved as lemmas. What a write does after an error is an assumption of the model; see `WireEncoder.Apply` under "## Left out". A decoder is written alongside the encoder as its partner, and round-trip lemmas connect the two.
- **DispatcherBase.** This is the sequential logic of the connection dispatcher:
  - start, stop and reconnect requests;
  - the clamped update rate;
  - flush rate limiting;
  - placement of accepted connections;
  - round-robin choice of client connectors;
  - the client and server handshakes, as functions of the incoming message sequence;
  - the recipients of `QueueOutgoing`;
  - `GetConnections`;
  - one step of the dispatch loop: posting, the reconnect decision, and the timeout and persistent-save timers.
- **IndependentNetworkTable.** This is the table layer over the entry store:
  - full entry names (`path/key`) and sub-tables;
  - `GetKeys`, `GetSubTables`, `ContainsKey` and `ContainsSubTable`;
  - entry flags and persistence;
  - `PutValue`, `GetValue` and `Delete`;
  - the three listener adapters and the listener bookkeeping;
  - connection listeners;
  - `IsConnected`.

Modules and files:

| file | module | what |
|---|---|---|
| `wrappers.dfy` | `Wrappers` | `Option`, `Result` |
| `values.dfy` | `Values` | protocol revisions, `NtType`, `Value` (doubles as 64-bit patterns) |
| `arithmetic.dfy` | `Arithmetic` | small facts about `/` and `%` |
| `messages.dfy` | `Messages` | message types, the message fields the dispatcher uses, connections |
| `wire_encoder.dfy` | `WireEncoder` | the encoder |
| `wire_decoder.dfy` | `WireDecoder` | a reader for what the encoder writes, and the round trips |
| `wire_vectors.dfy` | `WireVectors` | the byte vectors the unit tests expect |
| `handshake.dfy` | `Handshakes` | `ClientHandshake` and `ServerHandshake` |
| `dispatcher.dfy` | `Dispatcher` | the rest of `DispatcherBase` |
| `table.dfy` | `Table` | names, queries, flags and values of `IndependentNetworkTable` |
| `table_listeners.dfy` | `TableListeners` | listener adapters and registration, connection listeners, `IsConnected` |

Threads, locks and I/O are not modelled. Each loop body and each locked region becomes one pure step. Clocks become integer millisecond parameters. Calls into Storage, Notifier and NetworkConnection become parameters or small assumed functions. Each assumed function is named as such in its doc comment.

## Model

| member | source | states |
|---|---|---|
| WireEncoder.Be8 | test/NetworkTables.Core.Test/TestWireEncoder.cs:15-35 | Write8 writes one byte: the low 8 bits of its argument. |
| WireEncoder.Be16 | test/NetworkTables.Core.Test/TestWireEncoder.cs:54-75 | Write16 writes two bytes that read back, big-endian, as the argument mod 2^16. |
| WireEncoder.Be32 | test/NetworkTables.Core.Test/TestWireEncoder.cs:78-97 | Write32 writes four bytes that read back, big-endian, as the argument mod 2^32. |
| WireEncoder.BeDouble | test/NetworkTables.Core.Test/TestWireEncoder.cs:101-127 | WriteDouble writes eight bytes that read back, big-endian, as the 64-bit pattern. |
| WireEncoder.DigitsKeepLowBits | test/NetworkTables.Core.Test/TestWireEncoder.cs:54-97 | The reference digit expansion keeps exactly the value mod 256^n. |
| WireEncoder.Uleb128 | test/NetworkTables.Core.Test/TestWireEncoder.cs:130-147 | A LEB128 encoding has at least one byte. Every byte but the last has the continuation bit, and the last does not. |
| WireEncoder.Uleb128SizeIsMinimal | test/NetworkTables.Core.Test/TestWireEncoder.cs:130-147 | SizeUleb128 equals the encoding's length, and that is the fewest 7-bit groups that hold the number. |
| WireEncoder.TypeTag | test/NetworkTables.Core.Test/TestWireEncoder.cs:151-192 | WriteType fails exactly for Unassigned, and for Raw or Rpc below 3.0. Unassigned fails as an unrecognized type. |
| WireEncoder.StringPayloadLength | test/NetworkTables.Core.Test/TestWireEncoder.cs:375-400 | Below 3.0 at most 65535 bytes of a string are kept, and shorter strings are kept whole. From 3.0 on every byte is kept. |
| WireEncoder.StringSizeIsLength | test/NetworkTables.Core.Test/TestWireEncoder.cs:366-372 | GetStringSize equals the length of what WriteString writes. |
| WireEncoder.ArrayCount | test/NetworkTables.Core.Test/TestWireEncoder.cs:310-323 | An array is written with at most 255 elements. Shorter arrays are written whole. |
| WireEncoder.BooleanElements | test/NetworkTables.Core.Test/TestWireEncoder.cs:310-323 | A boolean array writes one byte per element, 1 for true and 0 for false. |
| WireEncoder.StringElementsSize | test/NetworkTables.Core.Test/TestWireEncoder.cs:346-363 | The size of a string array's elements is the sum of the string sizes. |
| WireEncoder.ValueSizeIsLength | test/NetworkTables.Core.Test/TestWireEncoder.cs:258-275 | GetValueSize is the length written when WriteValue succeeds, and it is 0 exactly when WriteValue fails. |
| WireEncoder.NewEncoder | test/NetworkTables.Core.Test/TestWireEncoder.cs:38-43 | A new encoder has its revision, an empty buffer and no error. |
| WireEncoder.Reset | test/NetworkTables.Core.Test/TestWireEncoder.cs:195-207 | Reset empties the buffer and clears the error, and keeps the revision. |
| WireEncoder.Apply | test/NetworkTables.Core.Test/TestWireEncoder.cs:176-192 | A successful call appends its bytes. A failing call appends nothing and records its error. With an error recorded, calls change nothing. |
| WireEncoder.ErrorIsSticky | test/NetworkTables.Core.Test/TestWireEncoder.cs:195-207 | Once an error is recorded, no sequence of calls changes the encoder until Reset. |
| WireEncoder.RunOnlyAppends | test/NetworkTables.Core.Test/TestWireEncoder.cs:15-35 | Calls only append to the buffer and keep the revision. A recorded error is the one left at the end. |
| WireEncoder.RunWithoutErrors | test/NetworkTables.Core.Test/TestWireEncoder.cs:15-35 | With no failing call, the buffer is the outputs of the calls in order and no error is set. |
| WireDecoder.Uleb128RoundTrip | test/NetworkTables.Core.Test/TestWireEncoder.cs:130-147 | A LEB128 encoding reads back as its number and consumes exactly its own bytes, whatever follows. |
| WireDecoder.StringRoundTrip | test/NetworkTables.Core.Test/TestWireEncoder.cs:570-597 | A written string reads back as the bytes the revision keeps, and consumes exactly what was written. |
| WireDecoder.TypeTagRoundTrip | test/NetworkTables.Core.Test/TestWireEncoder.cs:151-173 | Every tag WriteType writes reads back as its type, so distinct types get distinct tags. |
| WireDecoder.ReadDouble | test/NetworkTables.Core.Test/TestWireEncoder.cs:101-127 | A double can be read exactly when eight bytes are available. |
| WireDecoder.DoublesRoundTrip | test/NetworkTables.Core.Test/TestWireEncoder.cs:326-343 | The elements of a double array read back as the same patterns and consume 8 bytes each. |
| WireDecoder.StringsRoundTrip | test/NetworkTables.Core.Test/TestWireEncoder.cs:346-363 | The elements of a string array read back as the strings the revision keeps. |
| WireDecoder.BooleanArrayRoundTrip | test/NetworkTables.Core.Test/TestWireEncoder.cs:310-323 | A boolean array reads back as its first 255 elements. |
| WireDecoder.DoubleArrayRoundTrip | test/NetworkTables.Core.Test/TestWireEncoder.cs:326-343 | A double array reads back as its first 255 elements. |
| WireDecoder.StringArrayRoundTrip | test/NetworkTables.Core.Test/TestWireEncoder.cs:346-363 | A string array reads back as its first 255 strings, each cut to what the revision keeps. |
| WireDecoder.ValueRoundTrip | test/NetworkTables.Core.Test/TestWireEncoder.cs:278-363 | Every value WriteValue accepts reads back, whatever follows, as what the revision can carry. The read consumes exactly the bytes written. |
| WireDecoder.ValueRoundTripExact | test/NetworkTables.Core.Test/TestWireEncoder.cs:453-558 | A value within the limits of the revision reads back unchanged. |
| WireVectors.Write8Vector | test/NetworkTables.Core.Test/TestWireEncoder.cs:23-34 | 5, 0x101 and 0 are written as 05 01 00. |
| WireVectors.Write16Vector | test/NetworkTables.Core.Test/TestWireEncoder.cs:54-75 | The Write16 vectors, with 0x10001 truncated to 00 01. |
| WireVectors.Write32Vector | test/NetworkTables.Core.Test/TestWireEncoder.cs:78-97 | The Write32 vectors. |
| WireVectors.WriteDoubleVectors | test/NetworkTables.Core.Test/TestWireEncoder.cs:101-127 | The patterns of 0.0, 2.3e5, infinity, the least normal and the greatest double are written as the expected bytes. |
| WireVectors.Uleb128Vectors | test/NetworkTables.Core.Test/TestWireEncoder.cs:130-147 | 0, 0x7f, 0x80 and 65537 are written as the expected LEB128 bytes. |
| WireVectors.TypeTagVectors | test/NetworkTables.Core.Test/TestWireEncoder.cs:151-173 | At 3.0 every type except Unassigned is writable, and the tags are 00, 01, 02, 03, 10, 11, 12 and 20. |
| WireVectors.WriteTypeErrorVectors | test/NetworkTables.Core.Test/TestWireEncoder.cs:176-207 | Unassigned, and Raw and Rpc at 2.0, write nothing and record their error. Reset clears the error and the buffer. |
| WireVectors.BooleanVectors | test/NetworkTables.Core.Test/TestWireEncoder.cs:278-287 | true and false are written as 01 00. |
| WireVectors.DoubleVector | test/NetworkTables.Core.Test/TestWireEncoder.cs:290-297 | 1.0 is written as 3f f0 00 00 00 00 00 00. |
| WireVectors.StringValueVectors | test/NetworkTables.Core.Test/TestWireEncoder.cs:475-502 | "hello" is written as a string, raw or rpc value with the expected prefix at each revision. |
| WireVectors.BooleanArrayVector | test/NetworkTables.Core.Test/TestWireEncoder.cs:310-317 | [false, true, false] is written as 03 00 01 00. |
| WireVectors.DoubleArrayVector | test/NetworkTables.Core.Test/TestWireEncoder.cs:326-343 | [0.5, 0.25] is written with count 2 and the two patterns. |
| WireVectors.StringArrayVectors | test/NetworkTables.Core.Test/TestWireEncoder.cs:346-363 | ["hello", "goodbye"] is written with count 2 and each prefixed string, at both revisions. |
| WireVectors.BigBooleanArrayVector | test/NetworkTables.Core.Test/TestWireEncoder.cs:318-322 | A 256-element boolean array is written as a count of 255 and 255 bytes, with no error. |
| WireVectors.BigDoubleArrayVector | test/NetworkTables.Core.Test/TestWireEncoder.cs:326-343 | A 256-element double array is written as a count of 255 and 255 patterns. |
| WireVectors.BigStringArrayVectors | test/NetworkTables.Core.Test/TestWireEncoder.cs:346-363 | A 256-element string array is written as a count of 255 and 255 strings, at both revisions. |
| WireVectors.StringRev2Vectors | test/NetworkTables.Core.Test/TestWireEncoder.cs:366-400 | At 2.0 the short, long and big strings get 16-bit prefixes, and the big one is cut to 65535 bytes. |
| WireVectors.StringRev3Vectors | test/NetworkTables.Core.Test/TestWireEncoder.cs:561-597 | At 3.0 the strings get LEB128 prefixes and are written whole. |
| WireVectors.ValueErrorVectors | test/NetworkTables.Core.Test/TestWireEncoder.cs:403-430 | Null and empty values, and raw or rpc values at 2.0, write nothing and record an error. |
| WireVectors.ValueSizeVectors | test/NetworkTables.Core.Test/TestWireEncoder.cs:258-450 | All 26 GetValueSize vectors of both revisions (null, empty, boolean, double, string, raw, rpc, and the small and 256-element arrays). |
| Handshakes.AsInt32 | src/FRC.NetworkTables/DispatcherBase.cs:549-556 | `(int)msg.Id` lies in the signed 32-bit range and agrees with the id mod 2^32. |
| Handshakes.FramedEndIsUnique | src/FRC.NetworkTables/DispatcherBase.cs:586-606 | A run of EntryAssign messages has at most one closing message. |
| Handshakes.Collect | src/FRC.NetworkTables/DispatcherBase.cs:586-606 | The collecting loop returns the EntryAssign run up to its closing message. It breaks exactly when no closing message exists. |
| Handshakes.ServerBatch | src/FRC.NetworkTables/DispatcherBase.cs:558-578 | The server sends ServerHello from 3.0 on, then the initial assignments, then ServerHelloDone. |
| Handshakes.ServerHandshake | src/FRC.NetworkTables/DispatcherBase.cs:533-616 | No ClientHello fails. A revision above 3.0 gets ProtoUnsup. An accepted hello sends the batch and records the peer. |
| Handshakes.ServerAcceptsExactly | src/FRC.NetworkTables/DispatcherBase.cs:533-616 | The server succeeds exactly when the hello is accepted and, from 3.0 on, a closed EntryAssign run follows. |
| Handshakes.ServerProcessesInOrder | src/FRC.NetworkTables/DispatcherBase.cs:580-612 | Only a successful handshake hands messages to ProcessIncoming: every collected EntryAssign, in arrival order. |
| Handshakes.ClientHandshake | src/FRC.NetworkTables/DispatcherBase.cs:458-531 | The client always sends ClientHello first. ProtoUnsup 0x0200 asks for a 2.0 reconnect. A failure applies nothing and sends nothing more. |
| Handshakes.ClientAcceptsExactly | src/FRC.NetworkTables/DispatcherBase.cs:469-515 | The client succeeds exactly when the first reply is accepted and a closed EntryAssign run follows. |
| Handshakes.ClientAppliesAssignments | src/FRC.NetworkTables/DispatcherBase.cs:492-530 | On success, ApplyInitialAssignments receives the collected run and the new-server flag (bit 0 of ServerHello clear). From 3.0 on ClientHelloDone is sent last. |
| Dispatcher.NewDispatcher | src/FRC.NetworkTables/DispatcherBase.cs:31-57 | The dispatcher starts inactive, with no connections, an update rate of 100 ms and reconnects at 3.0. |
| Dispatcher.StartServer | src/FRC.NetworkTables/DispatcherBase.cs:100-147 | Only the first start of an inactive dispatcher has an effect, and it makes the dispatcher an active server. |
| Dispatcher.StartClient | src/FRC.NetworkTables/DispatcherBase.cs:156-187 | Only the first start has an effect, and it makes an active client with its connectors. |
| Dispatcher.ClientReconnect | src/FRC.NetworkTables/DispatcherBase.cs:618-628 | A server ignores the request. A client records the revision and raises the reconnect signal. |
| Dispatcher.Stop | src/FRC.NetworkTables/DispatcherBase.cs:190-227 | After Stop the dispatcher is inactive, with no connectors and no connections. Every connection it had is handed back to be disposed of. A client is asked to reconnect at 3.0. |
| Dispatcher.StartStopLifecycle | src/FRC.NetworkTables/DispatcherBase.cs:100-227 | A second start changes nothing. A stopped dispatcher can be started again as server or client. Stopping a started one leaves no connections and hands back the ones it had. |
| Dispatcher.ClampUpdateTime | src/FRC.NetworkTables/DispatcherBase.cs:64-70 | For every real value (not NaN), the setter clamps to [0.1, 1.0] seconds and leaves values inside the range alone. |
| Dispatcher.SetUpdateRate | src/FRC.NetworkTables/DispatcherBase.cs:61-73 | For every real value (not NaN), the stored rate lies in [100, 1000] ms and is the clamped value times 1000, truncated. Nothing else changes. |
| Dispatcher.SetUpdateRateVectors | src/FRC.NetworkTables/DispatcherBase.cs:61-73 | 0.25 s is stored as 250 ms. 0.05 s and -1 s clamp to 100 ms, and 5 s clamps to 1000 ms. |
| Dispatcher.UpdateRateGetterBreaksRoundTrip | src/FRC.NetworkTables/DispatcherBase.cs:63 | The getter as written returns milliseconds, so writing back a rate read as 0.5 s stores 1000 ms instead of 500. |
| Dispatcher.UpdateRateRoundTrip | src/FRC.NetworkTables/DispatcherBase.cs:61-73 | With the getter in seconds, writing back what was read changes nothing. |
| Dispatcher.Flush | src/FRC.NetworkTables/DispatcherBase.cs:229-243 | A flush is accepted exactly when none was accepted before or 100 ms have passed since the last. An accepted flush wakes the loop. |
| Dispatcher.ClearFlush | src/FRC.NetworkTables/DispatcherBase.cs:295-297 | After a pass of the loop, the wait ends again only if the dispatcher has stopped. Only the flush request changes. |
| Dispatcher.FlushWakesOnce | src/FRC.NetworkTables/DispatcherBase.cs:295-297 | An accepted flush ends the loop's wait. The next pass consumes it, so a running loop waits again. The pass keeps the flush time and does not change whether the next flush is accepted. |
| Dispatcher.FlushesAreSpaced | src/FRC.NetworkTables/DispatcherBase.cs:229-243 | Over any series of calls, accepted flushes are at least 100 ms apart, and the last one is remembered. |
| Dispatcher.PlaceAccepted | src/FRC.NetworkTables/DispatcherBase.cs:383-398 | An accepted connection takes the first Dead slot, or is appended. No other slot changes. |
| Dispatcher.FirstDeadIsFirst | src/FRC.NetworkTables/DispatcherBase.cs:386-395 | The slot chosen is the unique first Dead index, or the end of the list. |
| Dispatcher.ServerAccept | src/FRC.NetworkTables/DispatcherBase.cs:383-398 | After acceptance the connection is listed and no live connection is lost. |
| Dispatcher.ClientConnect | src/FRC.NetworkTables/DispatcherBase.cs:435-449 | The old connections are all disposed of. The new one is the only one and speaks the requested revision. The reconnect request is cleared. |
| Dispatcher.DowngradeOnProtoUnsup | src/FRC.NetworkTables/DispatcherBase.cs:618-628 | After a 2.0 reconnect request, the next client connection speaks 0x0200. |
| Dispatcher.NextConnector | src/FRC.NetworkTables/DispatcherBase.cs:414-419 | No connector is tried while the list is empty. Otherwise a valid index is tried, and the next index follows it. |
| Dispatcher.RoundRobin | src/FRC.NetworkTables/DispatcherBase.cs:405-419 | Attempt k tries connector k mod count. |
| Dispatcher.QueueOutgoing | src/FRC.NetworkTables/DispatcherBase.cs:630-644 | The message goes to exactly the synchronized or active connections that are not `except` and are `only` when given, in list order. A broadcast reaches exactly the synchronized and active connections. |
| Dispatcher.ActiveInfosMembers | src/FRC.NetworkTables/DispatcherBase.cs:245-260 | An info is listed exactly when some active connection has it. |
| Dispatcher.GetConnections | src/FRC.NetworkTables/DispatcherBase.cs:245-260 | An inactive dispatcher lists nothing. Otherwise it lists the infos of the active connections, in order. |
| Dispatcher.Posts | src/FRC.NetworkTables/DispatcherBase.cs:322-328 | A dispatch step makes at most one post per connection, with keep-alives only on a client. |
| Dispatcher.PostsAreActive | src/FRC.NetworkTables/DispatcherBase.cs:322-328 | Exactly the active connections are posted to. |
| Dispatcher.PostsOnePerActive | src/FRC.NetworkTables/DispatcherBase.cs:322-328 | A step posts exactly as many times as there are active connections, so no active connection is skipped or posted to twice. |
| Dispatcher.ReconnectDecision | src/FRC.NetworkTables/DispatcherBase.cs:329-339 | A step raises the reconnect signal exactly when the dispatcher is a client, some connection is Dead, and no reconnect is in progress. A server never raises it. Without the signal nothing changes. |
| Dispatcher.ReconnectSignalledOnce | src/FRC.NetworkTables/DispatcherBase.cs:334-339 | Two steps in a row never both raise the signal. |
| Dispatcher.NextTimeout | src/FRC.NetworkTables/DispatcherBase.cs:288-294 | The wait is never shorter than the update rate, and the deadline never falls behind. |
| Dispatcher.SaveStep | src/FRC.NetworkTables/DispatcherBase.cs:300-310 | A server with a persistence file saves exactly when the start time passes the next save time. That time then advances to at most one second after the start. |
| Table.GetSubTable | src/NetworkTables/Independent/IndependentNetworkTable.cs:98-101 | Key `k` of sub-table `key` names the same entry as key `key/k` of the table. |
| Table.FullName | src/NetworkTables/Independent/IndependentNetworkTable.cs:30-33 | An entry's name is the path, a separator and the key, in that order. |
| Table.GetEntryInfo | src/NetworkTables/Independent/IndependentNetworkTable.cs:52 | The assumed core query returns the names under a prefix that match the type mask. |
| Table.IndexOf | src/NetworkTables/Independent/IndependentNetworkTable.cs:57 | Returns -1 exactly when the character is absent, and otherwise its first position. |
| Table.GetKeysExactly | src/NetworkTables/Independent/IndependentNetworkTable.cs:50-62 | A key is listed exactly when its entry exists, contains no separator and matches the type mask. |
| Table.ContainsSubTableExactly | src/NetworkTables/Independent/IndependentNetworkTable.cs:40-43 | ContainsSubTable holds exactly when some entry lies under `path/key/`. |
| Table.ListedSubTable | src/NetworkTables/Independent/IndependentNetworkTable.cs:77-90 | A listed sub-table contains no separator and has an entry under it. |
| Table.SubTableIsListed | src/NetworkTables/Independent/IndependentNetworkTable.cs:77-90 | Every separator-free name that has an entry under it is listed. |
| Table.GetSubTablesExactly | src/NetworkTables/Independent/IndependentNetworkTable.cs:77-90 | GetSubTables lists exactly the separator-free names for which ContainsSubTable holds. |
| Table.KeysAndSubTablesPartition | src/NetworkTables/Independent/IndependentNetworkTable.cs:50-90 | Every entry under the table shows up in exactly one of GetKeys and GetSubTables. |
| Table.SetEntryFlags | src/NetworkTables/Independent/IndependentNetworkTable.cs:136-139 | The assumed core call replaces the flags of an existing entry only, and nothing else. |
| Table.SetFlags | src/NetworkTables/Independent/IndependentNetworkTable.cs:136-139 | The entry's flags gain the given bits. Its value and every other entry are kept. |
| Table.ClearFlags | src/NetworkTables/Independent/IndependentNetworkTable.cs:146-149 | The entry's flags lose the given bits. Its value and every other entry are kept. |
| Table.SetFlagsIsIdempotent | src/NetworkTables/Independent/IndependentNetworkTable.cs:136-139 | Setting the same flags twice is setting them once. |
| Table.ClearFlagsIsIdempotent | src/NetworkTables/Independent/IndependentNetworkTable.cs:146-149 | Clearing the same flags twice is clearing them once. |
| Table.ClearUndoesSet | src/NetworkTables/Independent/IndependentNetworkTable.cs:136-149 | Clearing the flags just set leaves those bits clear and the other bits as they were. |
| Table.PersistentFlag | src/NetworkTables/Independent/IndependentNetworkTable.cs:107-129 | After SetPersistent an entry is persistent exactly when it exists. After ClearPersistent it is not. Neither touches other flags. |
| Table.PutValue | src/NetworkTables/Independent/IndependentNetworkTable.cs:225-229 | Succeeds exactly when the entry is new or holds a value of the same type. A refusal changes nothing, and other entries are kept. |
| Table.Delete | src/NetworkTables/Independent/IndependentNetworkTable.cs:165-168 | Removes exactly the key's entry. |
| Table.PutThenGet | src/NetworkTables/Independent/IndependentNetworkTable.cs:216-229 | A stored value reads back, whatever the default. A refused one leaves the old value. |
| Table.DeleteThenGet | src/NetworkTables/Independent/IndependentNetworkTable.cs:165-222 | After Delete the key reads as the default, and other keys read as before. |
| TableListeners.ListenerFlagBits | src/NetworkTables/Independent/IndependentNetworkTable.cs:469-475 | The convenience registrations ask for new and updated values only. The boolean switches on immediate or local notification. |
| TableListeners.TableAdapterForwardsDirectChildren | src/NetworkTables/Independent/IndependentNetworkTable.cs:399-407 | The table adapter forwards exactly the events of direct children, with the key, value and flags. |
| TableListeners.KeyAdapterAgreesWithTableAdapter | src/NetworkTables/Independent/IndependentNetworkTable.cs:425-430 | The per-key adapter forwards exactly its key's events, as the table adapter would. |
| TableListeners.SubTableAdapter | src/NetworkTables/Independent/IndependentNetworkTable.cs:446-459 | An event is reported exactly when its relative key has a separator and the first segment was not reported before. A key on a direct child is ignored. The report names the first segment, with no value and the event's flags, and the segment is then remembered. |
| TableListeners.SubTableRun | src/NetworkTables/Independent/IndependentNetworkTable.cs:446-459 | Over a run of events, no sub-table is reported twice or reported again after an earlier report. The remembered set grows by exactly the reported ones. |
| TableListeners.SubTableRunReportsAll | src/NetworkTables/Independent/IndependentNetworkTable.cs:446-459 | Every sub-table an event touches has been reported by the end of the run. |
| TableListeners.EventSegmentsMembers | src/NetworkTables/Independent/IndependentNetworkTable.cs:450-454 | The sub-tables a run touches are exactly the first segments of the events whose relative key has a separator. |
| TableListeners.SubTableRunReportsOnlySubTables | src/NetworkTables/Independent/IndependentNetworkTable.cs:446-459 | The names a run ends up remembering are exactly the earlier ones plus the sub-tables its events touch. So every reported key is such a sub-table, and an event on a direct child reports nothing. |
| TableListeners.NoListeners | src/NetworkTables/Independent/IndependentNetworkTable.cs:384-386 | A new table's listener bookkeeping is consistent. |
| TableListeners.AddAdapter | src/NetworkTables/Independent/IndependentNetworkTable.cs:408-411 | Registering an adapter appends its fresh core id to the listener's list and leaves the other listeners alone. |
| TableListeners.AddTableListenerEx | src/NetworkTables/Independent/IndependentNetworkTable.cs:389-412 | Registers a table adapter on `path/` with the given flags, and records its id. |
| TableListeners.AddKeyListenerEx | src/NetworkTables/Independent/IndependentNetworkTable.cs:415-435 | Registers a per-key adapter on the key's full name, and records its id. |
| TableListeners.AddTableListener | src/NetworkTables/Independent/IndependentNetworkTable.cs:469-475 | Registers a table adapter with the new, update and optional immediate flags, and appends its id to the listener's list. |
| TableListeners.AddKeyListener | src/NetworkTables/Independent/IndependentNetworkTable.cs:478-484 | Registers a per-key adapter with the new, update and optional immediate flags, and appends its id to the listener's list. |
| TableListeners.AddSubTableListener | src/NetworkTables/Independent/IndependentNetworkTable.cs:438-466 | Registers a sub-table adapter on `path/` with the new, update and optional local flags. |
| TableListeners.RemoveIds | src/NetworkTables/Independent/IndependentNetworkTable.cs:498-501 | Exactly the listed ids leave the core's listeners, and the rest are kept. |
| TableListeners.RemoveTableListener | src/NetworkTables/Independent/IndependentNetworkTable.cs:493-504 | Every adapter of the listener is removed and its list emptied. The other core listeners keep their subscriptions, and the next id is unchanged. An unknown listener changes nothing. |
| TableListeners.AddThenRemove | src/NetworkTables/Independent/IndependentNetworkTable.cs:389-504 | Adding and then removing a listener removes its new adapter and all its earlier ones. |
| TableListeners.NoConnListeners | src/NetworkTables/Independent/IndependentNetworkTable.cs:625-629 | A new table's connection-listener bookkeeping is empty and consistent. |
| TableListeners.AddConnectionListener | src/NetworkTables/Independent/IndependentNetworkTable.cs:632-648 | A listener already present is refused and nothing changes. Otherwise it is registered under a fresh core id, one that no live core listener and no other listener holds, and the bookkeeping stays consistent. |
| TableListeners.RemoveConnectionListenerAsWritten | src/NetworkTables/Independent/IndependentNetworkTable.cs:651-658 | As written, the core listener is removed but the listener stays in the map. The bookkeeping stays consistent. |
| TableListeners.RemovedConnectionListenerCannotReturn | src/NetworkTables/Independent/IndependentNetworkTable.cs:632-658 | As written, a listener added and removed is refused when added again. |
| TableListeners.RemoveConnectionListener | src/NetworkTables/Independent/IndependentNetworkTable.cs:651-658 | Corrected: both the core listener and the map entry go, and the bookkeeping stays consistent. |
| TableListeners.RemovedConnectionListenerCanReturn | src/NetworkTables/Independent/IndependentNetworkTable.cs:632-658 | Corrected: adding then removing restores the map, and the listener can be added again. |
| TableListeners.ConnectionDelegateAdapter | src/NetworkTables/Independent/IndependentNetworkTable.cs:661-674 | The delegate receives the same connection and the same connected flag that the object adapter (lines 640-644) passes to a listener object. |
| TableListeners.IsConnectedExactly | src/NetworkTables/Independent/IndependentNetworkTable.cs:689-696 | The table is connected exactly when the dispatcher runs and one of its connections is active. |

## Left out

- Threads, locks, condition variables, sockets and the `TcpAcceptor`, `RuntimeDetector` and native `Structs` files. The model is sequential, and each loop iteration is one pure step.
- Dispatcher.SetUpdateRate: a NaN argument is not modelled, and neither is it in Dispatcher.ClampUpdateTime. Both comparisons of the clamp (DispatcherBase.cs lines 66-69) are false for NaN, so NaN passes unclamped and `(uint)(NaN * 1000)` is stored. C# leaves that conversion unspecified, and on .NET it is typically 0 ms. That is outside [100, 1000] and would make the dispatch loop's wait (lines 288-294) zero. The model's argument is a `real`, which cannot be NaN, so the [100, 1000] ms bound is promised only for real arguments.
- Floating point. Doubles are carried as 64-bit IEEE-754 patterns, and no arithmetic is done on them. The update rate is a `real`, and `(uint)(value * 1000)` is modelled as truncation of a non-negative real.
- The encoder's `ProtoRev` setter (`SetProtoRev`, TestWireEncoder.cs lines 46-51). The revision is a field of the encoder record.
- The WireEncoder source file is not part of this model. The encoder follows the test vectors. Per the vectors, arrays over 255 elements and 2.0 strings over 65535 bytes are cut short without an error.
- The internals of `Storage`, `Notifier`, `NetworkConnection` and `Message`. Storage's `GetEntryInfo`, `SetEntryFlags`, `SetEntryValue` and `DeleteEntry` are modelled as small assumed functions over a map of entries. The notifier's `AddEntryListener`, `RemoveEntryListener`, `AddConnectionListener` and `RemoveConnectionListener` are modelled by the `core` and `nextId` fields of the `Listeners` and `ConnListeners` records: a fresh id per registration, and removal of the given id. `GetInitialAssignments` and `ApplyInitialAssignments` are parameters of the handshakes.
- `NotifyConnections` (DispatcherBase.cs lines 262-272). It only forwards to the notifier.
- The persistent-file calls `Flush`, `SavePersistent` and `LoadPersistent` of the table. They are one-line forwards to the core. `IsServer` is also left out, because it forwards the dispatcher's `server` flag.
- The obsolete `GetValue(string)`, and the typed `Put*`/`Get*` wrappers. These are `PutValue` and `GetValue` with a conversion.
- The delegate overloads of the table listeners (IndependentNetworkTable.cs lines 508-626). They behave as the listener-object overloads do. One `Listeners` record models both maps.
- Logging, the dispatch loop's debug counter and the `ToString` of the table.
- WireEncoder.Apply: a write after an error is assumed to change nothing, so the first error is the one kept until Reset. No unit test writes after an error without calling Reset first, and the encoder's source is not part of this model.
- Dispatcher.Posts: its own contract bounds the posts by the number of connections and fixes their keep-alive flag. That there is exactly one post per active connection is stated by `PostsAreActive` and `PostsOnePerActive`.

## Findings

| source | as written | input that shows it | evidently intended | confidence | as-written member | corrected member |
|---|---|---|---|---|---|---|
| src/FRC.NetworkTables/DispatcherBase.cs:61-73 | The `UpdateRate` getter returns the stored milliseconds, but the setter takes seconds. | Set 0.5. The getter reads 500, and writing that back clamps to 1000 ms. | The getter returns seconds, so reading then writing back leaves the rate as it was. | not executed | Dispatcher.UpdateRateGetterBreaksRoundTrip | Dispatcher.UpdateRateRoundTrip |
| src/NetworkTables/Independent/IndependentNetworkTable.cs:651-658 | `RemoveConnectionListener` removes the core listener but keeps the entry in the table's map. The delegate overload (lines 677-684) does the same with its own map. | Add listener L, remove L, then add L again. The add is refused because L is still in the map. | The map entry is removed too, so a removed listener can be added again. | not executed | TableListeners.RemovedConnectionListenerCannotReturn | TableListeners.RemovedConnectionListenerCanReturn |

=== FILE: arithmetic.dfy ===
/** Facts about Euclidean division that the encoders and the dispatcher share. */
module Arithmetic {
  lemma MulAtLeast(a: int, m: int)
    requires a >= 1 && m > 0
    ensures a * m >= m
  {
    assert a * m == (a - 1) * m + m;
  }

  lemma MulMonotone(a: int, b: int, m: int)
    requires a <= b && m >= 0
    ensures a * m <= b * m
  {
    assert b * m - a * m == (b - a) * m;
  }

  lemma DivModUnique(x: int, m: int, q: int, r: int)
    requires m > 0 && 0 <= r < m && x == q * m + r
    ensures x / m == q && x % m == r
  {
    var q' := x / m;
    var r' := x % m;
    var d := q - q';
    assert d * m == r' - r by {
      assert q * m - q' * m == r' - r;
    }
    if d > 0 {
      MulAtLeast(d, m);
    } else if d < 0 {
      MulAtLeast(-d, m);
    }
  }

  /** The remainder modulo `a * m` is the digit above `a` followed by the remainder below it. */
  lemma ModSplit(x: nat, a: nat, m: nat)
    requires a >= 1 && m >= 1
    ensures x % (a * m) == (x / a) % m * a + x % a
  {
    var q := x / a;
    var r := x % a;
    var q2 := q / m;
    var r2 := q % m;
    assert x == q * a + r;
    assert q == q2 * m + r2;
    assert x == q2 * (a * m) + (r2 * a + r) by {
      assert (q2 * m + r2) * a == q2 * (a * m) + r2 * a;
    }
    assert r2 * a + r < a * m by {
      MulMonotone(r2, m - 1, a);
      assert (m - 1) * a == a * m - a;
    }
    DivModUnique(x, a * m, q2, r2 * a + r);
  }

  /** Counting up by one wraps the remainder to 0 exactly when it reaches the modulus. */
  lemma ModSuccessor(k: nat, m: nat)
    requires k >= 1 && m >= 1
    ensures (k - 1) % m + 1 == m ==> k % m == 0
    ensures (k - 1) % m + 1 < m ==> k % m == (k - 1) % m + 1
  {
    var q := (k - 1) / m;
    var r := (k - 1) % m;
    assert k == q * m + r + 1;
    if r + 1 == m {
      assert k == (q + 1) * m + 0;
      DivModUnique(k, m, q + 1, 0);
    } else {
      DivModUnique(k, m, q, r + 1);
    }
  }
}

=== FILE: dispatcher.dfy ===
/**
 * The sequential decisions of DispatcherBase: where an accepted connection
 * goes, how a client replaces its connection, which connector it tries
 * next, who receives an outgoing message, when the dispatch loop asks for a
 * reconnect or a save, and the update-rate and flush settings. Each thread
 * loop body is one step over an immutable Dispatcher record; time is
 * integer milliseconds, and a Connector is identified by its index.
 */
module Dispatcher {
  import opened Wrappers
  import opened Values
  import opened Messages
  import opened Arithmetic

  datatype Dispatcher = Dispatcher(
    active: bool,
    server: bool,
    connections: seq<Connection>,
    connectorCount: nat,      // m_clientConnectors.Count
    doReconnect: bool,
    reconnectProtoRev: int,
    updateRate: nat,          // milliseconds
    lastFlush: Option<int>,   // None: never flushed (DateTime.MinValue)
    doFlush: bool)

  /** The constructor. */
  function NewDispatcher(): (d: Dispatcher)
    ensures !d.active && d.connections == [] && d.doReconnect && d.reconnectProtoRev == Rev3
    ensures d.updateRate == 100 && d.lastFlush.None? && !d.doFlush
  {
    Dispatcher(false, false, [], 0, true, Rev3, 100, None, false)
  }

  // ---------------------------------------------------------------------
  // Starting and stopping
  // ---------------------------------------------------------------------

  /** StartServer: only the first start of an inactive dispatcher has an effect. */
  function StartServer(d: Dispatcher): (r: Dispatcher)
    ensures d.active ==> r == d
    ensures !d.active ==> r == d.(active := true, server := true)
  {
    if d.active then d else d.(active := true, server := true)
  }

  /** StartClient: as StartServer, recording how many connectors there are. */
  function StartClient(d: Dispatcher, connectorCount: nat): (r: Dispatcher)
    ensures d.active ==> r == d
    ensures !d.active ==> r == d.(active := true, server := false, connectorCount := connectorCount)
  {
    if d.active then d else d.(active := true, server := false, connectorCount := connectorCount)
  }

  /**
   * ClientReconnect: on a client, remember the revision to reconnect with
   * and ask the client loop for a new connection (the second component
   * says whether the reconnect signal was raised); on a server, nothing.
   */
  function ClientReconnect(d: Dispatcher, protoRev: int): (r: (Dispatcher, bool))
    ensures d.server ==> r == (d, false)
    ensures !d.server ==> r.1 && r.0 == d.(reconnectProtoRev := protoRev, doReconnect := true)
  {
    if d.server then (d, false) else (d.(reconnectProtoRev := protoRev, doReconnect := true), true)
  }

  /**
   * Stop: deactivate, forget the connectors, ask a client for a reconnect
   * at the default revision (which wakes its loop), and swap out every
   * connection; the second component is the list of connections disposed of.
   */
  function Stop(d: Dispatcher): (r: (Dispatcher, seq<Connection>))
    ensures !r.0.active && r.0.connectorCount == 0 && r.0.connections == []
    ensures r.1 == d.connections
    ensures r.0.server == d.server && r.0.updateRate == d.updateRate
    ensures !d.server ==> r.0.doReconnect && r.0.reconnectProtoRev == Rev3
    ensures d.server ==> r.0.doReconnect == d.doReconnect && r.0.reconnectProtoRev == d.reconnectProtoRev
  {
    var stopped := d.(active := false, connectorCount := 0);
    (ClientReconnect(stopped, Rev3).0.(connections := []), d.connections)
  }

  /**
   * The lifecycle: a second start changes nothing, a stopped dispatcher can
   * be started again in either role, and stopping a started one leaves no
   * connection behind while handing back every connection it had.
   */
  lemma StartStopLifecycle(d: Dispatcher, connectorCount: nat)
    ensures StartServer(StartServer(d)) == StartServer(d)
    ensures StartClient(StartClient(d, connectorCount), connectorCount) == StartClient(d, connectorCount)
    ensures var s := StartServer(Stop(d).0); s.active && s.server && s.connections == []
    ensures var c := StartClient(Stop(d).0, connectorCount); c.active && !c.server && c.connectorCount == connectorCount
    ensures Stop(StartServer(d)).0.connections == [] && Stop(StartServer(d)).1 == d.connections
  {
  }

  // ---------------------------------------------------------------------
  // Settings
  // ---------------------------------------------------------------------

  const MinimumUpdateTime: real := 0.1
  const MaximumUpdateTime: real := 1.0

  /** The setter's clamp to [0.1, 1.0] seconds. */
  function ClampUpdateTime(value: real): (r: real)
    ensures MinimumUpdateTime <= r <= MaximumUpdateTime
    ensures MinimumUpdateTime <= value <= MaximumUpdateTime ==> r == value
    ensures value < MinimumUpdateTime ==> r == MinimumUpdateTime
    ensures value > MaximumUpdateTime ==> r == MaximumUpdateTime
  {
    if value < MinimumUpdateTime then MinimumUpdateTime
    else if value > MaximumUpdateTime then MaximumUpdateTime
    else value
  }

  /** `(uint)(value * 1000)` of the clamped value: truncation, which is the floor for a positive value. */
  function UpdateRateMillis(value: real): (r: nat)
    ensures 100 <= r <= 1000
    ensures r as real <= ClampUpdateTime(value) * 1000.0 < r as real + 1.0
  {
    var ms := ClampUpdateTime(value) * 1000.0;
    assert 100.0 <= ms <= 1000.0;
    ms.Floor
  }

  /**
   * The UpdateRate setter: for every real value (a NaN is not one; see
   * README) the stored rate is between 100 and 1000 ms.
   */
  function SetUpdateRate(d: Dispatcher, value: real): (r: Dispatcher)
    ensures 100 <= r.updateRate <= 1000
    ensures r.updateRate as real <= ClampUpdateTime(value) * 1000.0 < r.updateRate as real + 1.0
    ensures r == d.(updateRate := r.updateRate)
  {
    d.(updateRate := UpdateRateMillis(value))
  }

  /** The setter is exact on whole milliseconds: 0.25 s is 250 ms, and out-of-range values clamp. */
  lemma SetUpdateRateVectors(d: Dispatcher)
    ensures SetUpdateRate(d, 0.25).updateRate == 250
    ensures SetUpdateRate(d, 0.05).updateRate == 100
    ensures SetUpdateRate(d, 5.0).updateRate == 1000
    ensures SetUpdateRate(d, -1.0).updateRate == 100
  {
    assert (0.25 * 1000.0).Floor == 250;
  }

  /** The UpdateRate getter as written: it returns the stored milliseconds, not seconds. */
  function UpdateRateAsWritten(d: Dispatcher): real {
    d.updateRate as real
  }

  /**
   * Reading the rate and writing it back changes it: a rate set to half a
   * second reads as 500, which the setter clamps to one second.
   */
  lemma UpdateRateGetterBreaksRoundTrip()
    ensures var d := SetUpdateRate(NewDispatcher(), 0.5);
      && d.updateRate == 500
      && UpdateRateAsWritten(d) == 500.0
      && SetUpdateRate(d, UpdateRateAsWritten(d)).updateRate == 1000
  {
    assert (0.5 * 1000.0).Floor == 500;
  }

  /** The UpdateRate getter in the setter's unit, seconds. */
  function UpdateRateSeconds(d: Dispatcher): real {
    d.updateRate as real / 1000.0
  }

  /**
   * With the getter in seconds, writing back what was read changes nothing,
   * and what is read is the clamped value stored, to the millisecond below.
   */
  lemma UpdateRateRoundTrip(d: Dispatcher, value: real)
    ensures var stored := SetUpdateRate(d, value);
      && SetUpdateRate(stored, UpdateRateSeconds(stored)) == stored
      && UpdateRateSeconds(stored) <= ClampUpdateTime(value) < UpdateRateSeconds(stored) + 0.001
  {
    var stored := SetUpdateRate(d, value);
    var seconds := UpdateRateSeconds(stored);
    assert MinimumUpdateTime <= seconds <= MaximumUpdateTime;
    assert seconds * 1000.0 == stored.updateRate as real;
    assert (stored.updateRate as real).Floor == stored.updateRate;
  }

  const FlushInterval: int := 100

  /**
   * Flush: ignored within 100 ms of the last accepted flush; otherwise it is
   * recorded and the dispatch loop is woken (the second component).
   */
  function Flush(d: Dispatcher, now: int): (r: (Dispatcher, bool))
    ensures r.1 <==> d.lastFlush.None? || now - d.lastFlush.value >= FlushInterval
    ensures r.1 ==> r.0 == d.(lastFlush := Some(now), doFlush := true)
    ensures !r.1 ==> r.0 == d
  {
    if d.lastFlush.Some? && now - d.lastFlush.value < FlushInterval then (d, false)
    else (d.(lastFlush := Some(now), doFlush := true), true)
  }

  /** The condition the dispatch loop's wait ends on: stopped, or a flush requested. */
  predicate WakesLoop(d: Dispatcher) {
    !d.active || d.doFlush
  }

  /** A pass of the dispatch loop past its wait: the flush request is consumed. */
  function ClearFlush(d: Dispatcher): (r: Dispatcher)
    ensures WakesLoop(r) <==> !d.active
    ensures r.(doFlush := d.doFlush) == d
  {
    d.(doFlush := false)
  }

  /**
   * An accepted flush ends the loop's wait, and the pass that follows
   * consumes it: a running loop then waits again, for its timeout or for
   * the next accepted flush, and the time of the flush is kept.
   */
  lemma FlushWakesOnce(d: Dispatcher, now: int)
    ensures Flush(d, now).1 ==> WakesLoop(Flush(d, now).0)
    ensures WakesLoop(ClearFlush(Flush(d, now).0)) <==> !d.active
    ensures ClearFlush(Flush(d, now).0).lastFlush == Flush(d, now).0.lastFlush
    ensures Flush(ClearFlush(d), now).1 == Flush(d, now).1
  {
  }

  /** The times, out of a series of Flush calls, at which a flush was accepted. */
  function AcceptedFlushes(d: Dispatcher, times: seq<int>): seq<int>
    decreases |times|
  {
    if |times| == 0 then []
    else
      var step := Flush(d, times[0]);
      (if step.1 then [times[0]] else []) + AcceptedFlushes(step.0, times[1..])
  }

  /** The dispatcher after a series of Flush calls. */
  function AfterFlushes(d: Dispatcher, times: seq<int>): Dispatcher
    decreases |times|
  {
    if |times| == 0 then d else AfterFlushes(Flush(d, times[0]).0, times[1..])
  }

  /**
   * Whatever the call times (even when the clock goes backwards), accepted
   * flushes are at least 100 ms apart, the first at least 100 ms after the
   * last earlier one, and the dispatcher remembers the latest accepted one.
   */
  lemma {:induction false} FlushesAreSpaced(d: Dispatcher, times: seq<int>)
    ensures var acc := AcceptedFlushes(d, times);
      && (forall i :: 0 <= i < |acc| - 1 ==> acc[i] + FlushInterval <= acc[i + 1])
      && (d.lastFlush.Some? && |acc| > 0 ==> d.lastFlush.value + FlushInterval <= acc[0])
      && (forall i :: 0 <= i < |acc| ==> acc[i] in times)
      && (|acc| > 0 ==> AfterFlushes(d, times).lastFlush == Some(acc[|acc| - 1]))
      && (|acc| == 0 ==> AfterFlushes(d, times).lastFlush == d.lastFlush)
    decreases |times|
  {
    if |times| > 0 {
      var step := Flush(d, times[0]);
      var d', woken := step.0, step.1;
      FlushesAreSpaced(d', times[1..]);
      var rest := AcceptedFlushes(d', times[1..]);
      var acc := AcceptedFlushes(d, times);
      assert acc == (if woken then [times[0]] else []) + rest;
      assert AfterFlushes(d, times) == AfterFlushes(d', times[1..]);
      forall i | 0 <= i < |rest|
        ensures rest[i] in times
      {
        assert rest[i] in times[1..];
      }
      if woken {
        assert d'.lastFlush == Some(times[0]);
      }
    }
  }

  // ---------------------------------------------------------------------
  // Connection list
  // ---------------------------------------------------------------------

  /** The first Dead slot of a connection list, or its length when there is none. */
  function FirstDead(conns: seq<Connection>): (r: nat)
    ensures r <= |conns|
    ensures r < |conns| ==> conns[r].state == Dead
    ensures forall i :: 0 <= i < r ==> conns[i].state != Dead
  {
    if |conns| == 0 then 0
    else if conns[0].state == Dead then 0
    else 1 + FirstDead(conns[1..])
  }

  /**
   * The server loop's placement of an accepted connection: it takes the
   * first Dead slot, or is appended. The list grows by at most one and
   * every other slot keeps its connection.
   */
  method PlaceAccepted(conns: seq<Connection>, conn: Connection) returns (r: seq<Connection>, slot: nat)
    ensures slot == FirstDead(conns)
    ensures |r| == if slot < |conns| then |conns| else |conns| + 1
    ensures r[slot] == conn
    ensures forall i :: 0 <= i < |conns| && i != slot ==> r[i] == conns[i]
  {
    var i := 0;
    while i < |conns|
      invariant 0 <= i <= |conns|
      invariant forall j :: 0 <= j < i ==> conns[j].state != Dead
    {
      if conns[i].state == Dead {
        FirstDeadIsFirst(conns, i);
        return conns[i := conn], i;
      }
      i := i + 1;
    }
    FirstDeadIsFirst(conns, |conns|);
    return conns + [conn], |conns|;
  }

  /** FirstDead is the one index before which nothing is Dead and at which the list is Dead or over. */
  lemma FirstDeadIsFirst(conns: seq<Connection>, k: nat)
    requires k <= |conns|
    requires k < |conns| ==> conns[k].state == Dead
    requires forall j :: 0 <= j < k ==> conns[j].state != Dead
    ensures FirstDead(conns) == k
  {
  }

  /** The server loop's step for an accepted connection. */
  method ServerAccept(d: Dispatcher, conn: Connection) returns (r: Dispatcher)
    ensures r == d.(connections := r.connections)
    ensures conn in r.connections
    ensures forall c :: c in d.connections && c.state != Dead ==> c in r.connections
  {
    var conns, slot := PlaceAccepted(d.connections, conn);
    forall c | c in d.connections && c.state != Dead
      ensures c in conns
    {
      var i :| 0 <= i < |d.connections| && d.connections[i] == c;
      assert i != slot;
      assert conns[i] == c;
    }
    r := d.(connections := conns);
  }

  /**
   * The client loop's step for a new connection: every current connection
   * is disposed of (the second component) and replaced by the new one,
   * which speaks the revision of the last reconnect request; the reconnect
   * request is then cleared.
   */
  function ClientConnect(d: Dispatcher, conn: Connection): (r: (Dispatcher, seq<Connection>))
    ensures r.1 == d.connections
    ensures r.0.connections == [conn.(protoRev := d.reconnectProtoRev)]
    ensures !r.0.doReconnect
    ensures r.0 == d.(connections := r.0.connections, doReconnect := false)
  {
    (d.(connections := [conn.(protoRev := d.reconnectProtoRev)], doReconnect := false), d.connections)
  }

  /**
   * A refused 2.0 client is downgraded: after ProtoUnsup with id 0x0200 has
   * asked for a reconnect at 0x0200, the next connection the client makes
   * speaks 0x0200 and is the only one.
   */
  lemma DowngradeOnProtoUnsup(d: Dispatcher, conn: Connection)
    requires !d.server
    ensures var asked := ClientReconnect(d, Rev2).0;
      var next := ClientConnect(asked, conn);
      next.0.connections == [conn.(protoRev := Rev2)] && next.1 == d.connections && !next.0.doReconnect
  {
  }

  /**
   * The client loop's choice of connector: none while the list is empty;
   * otherwise the index wraps to 0 at the end of the list. Returns the
   * connector tried and the index for the next attempt.
   */
  function NextConnector(count: nat, index: nat): (r: Option<(nat, nat)>)
    ensures count == 0 <==> r.None?
    ensures r.Some? ==> r.value.0 < count && r.value.1 == r.value.0 + 1
  {
    if count == 0 then None
    else
      var i := if index >= count then 0 else index;
      Some((i, i + 1))
  }

  /** The loop's index before attempt `k`, starting from 0 with `count` connectors. */
  function ConnectorIndex(count: nat, k: nat): nat
    requires count > 0
  {
    if k == 0 then 0 else NextConnector(count, ConnectorIndex(count, k - 1)).value.1
  }

  /** Attempt `k` tries connector `k mod count`: the connectors are tried round-robin. */
  lemma {:induction false} RoundRobin(count: nat, k: nat)
    requires count > 0
    ensures NextConnector(count, ConnectorIndex(count, k)).value.0 == k % count
    ensures ConnectorIndex(count, k) == if k == 0 then 0 else (k - 1) % count + 1
  {
    if k > 0 {
      RoundRobin(count, k - 1);
      ModSuccessor(k, count);
    }
  }

  /** The recipients QueueOutgoing accepts: not `except`, `only` if given, and synchronized or active. */
  predicate Recipient(c: Connection, only: Option<nat>, except: Option<nat>) {
    && (except.None? || c.handle != except.value)
    && (only.None? || c.handle == only.value)
    && (c.state == Synchronized || c.state == Active)
  }

  /**
   * QueueOutgoing: the indices of the connections the message is queued
   * on, in list order: exactly the recipients. A broadcast (neither `only`
   * nor `except`) reaches exactly the synchronized and active connections.
   */
  method QueueOutgoing(conns: seq<Connection>, only: Option<nat>, except: Option<nat>) returns (r: seq<nat>)
    ensures forall k :: 0 <= k < |r| ==> r[k] < |conns| && Recipient(conns[r[k]], only, except)
    ensures forall i :: 0 <= i < |conns| && Recipient(conns[i], only, except) ==> i in r
    ensures forall k, l :: 0 <= k < l < |r| ==> r[k] < r[l]
    ensures only.None? && except.None? ==>
      forall i :: 0 <= i < |conns| ==> (i in r <==> conns[i].state == Synchronized || conns[i].state == Active)
  {
    r := [];
    var i := 0;
    while i < |conns|
      invariant 0 <= i <= |conns|
      invariant forall k :: 0 <= k < |r| ==> r[k] < i && Recipient(conns[r[k]], only, except)
      invariant forall j :: 0 <= j < i && Recipient(conns[j], only, except) ==> j in r
      invariant forall k, l :: 0 <= k < l < |r| ==> r[k] < r[l]
    {
      if Recipient(conns[i], only, except) {
        r := r + [i];
      }
      i := i + 1;
    }
  }

  /** The infos of the active connections, in list order. */
  function ActiveInfos(conns: seq<Connection>): seq<ConnectionInfo> {
    if |conns| == 0 then []
    else
      var last := conns[|conns| - 1];
      ActiveInfos(conns[..|conns| - 1]) + (if last.state == Active then [Info(last)] else [])
  }

  /** An info is listed exactly when some active connection has it. */
  lemma {:induction false} ActiveInfosMembers(conns: seq<Connection>, info: ConnectionInfo)
    ensures info in ActiveInfos(conns) <==> exists c :: c in conns && c.state == Active && Info(c) == info
    ensures |ActiveInfos(conns)| <= |conns|
  {
    if |conns| > 0 {
      var init := conns[..|conns| - 1];
      var last := conns[|conns| - 1];
      ActiveInfosMembers(init, info);
      assert conns == init + [last];
      if info in ActiveInfos(init) {
        var c :| c in init && c.state == Active && Info(c) == info;
        assert c in conns;
      }
      if exists c :: c in conns && c.state == Active && Info(c) == info {
        var c :| c in conns && c.state == Active && Info(c) == info;
        if c != last {
          assert c in init;
        }
      }
    }
  }

  /** GetConnections: nothing while inactive, otherwise the infos of the active connections. */
  method GetConnections(d: Dispatcher) returns (r: seq<ConnectionInfo>)
    ensures !d.active ==> r == []
    ensures d.active ==> r == ActiveInfos(d.connections)
  {
    r := [];
    if !d.active {
      return;
    }
    var conns := d.connections;
    var i := 0;
    while i < |conns|
      invariant 0 <= i <= |conns|
      invariant r == ActiveInfos(conns[..i])
    {
      assert conns[..i + 1][..i] == conns[..i];
      if conns[i].state == Active {
        r := r + [Info(conns[i])];
      }
      i := i + 1;
    }
    assert conns[..|conns|] == conns;
  }

  // ---------------------------------------------------------------------
  // Dispatch loop
  // ---------------------------------------------------------------------

  /** A PostOutgoing call: on which connection, and whether keep-alives may be sent. */
  datatype Post = Post(handle: nat, keepAlive: bool)

  /** The posts of one dispatch step: every active connection, keep-alives only on a client. */
  function Posts(conns: seq<Connection>, server: bool): (r: seq<Post>)
    ensures |r| <= |conns|
    ensures forall p :: p in r ==> p.keepAlive == !server
  {
    if |conns| == 0 then []
    else (if conns[0].state == Active then [Post(conns[0].handle, !server)] else []) + Posts(conns[1..], server)
  }

  /** Exactly the active connections are posted to. */
  lemma {:induction false} PostsAreActive(conns: seq<Connection>, server: bool, h: nat)
    ensures Post(h, !server) in Posts(conns, server) <==> exists c :: c in conns && c.state == Active && c.handle == h
  {
    if |conns| > 0 {
      PostsAreActive(conns[1..], server, h);
      assert conns == [conns[0]] + conns[1..];
      if exists c :: c in conns[1..] && c.state == Active && c.handle == h {
        var c :| c in conns[1..] && c.state == Active && c.handle == h;
        assert c in conns;
      }
      if exists c :: c in conns && c.state == Active && c.handle == h {
        var c :| c in conns && c.state == Active && c.handle == h;
        if c != conns[0] {
          assert c in conns[1..];
        }
      }
    }
  }

  /** A connection appended to the list adds its own post, if any, at the end. */
  lemma {:induction false} PostsAppend(conns: seq<Connection>, c: Connection, server: bool)
    ensures Posts(conns + [c], server) == Posts(conns, server) + (if c.state == Active then [Post(c.handle, !server)] else [])
    decreases |conns|
  {
    if |conns| > 0 {
      assert (conns + [c])[1..] == conns[1..] + [c];
      PostsAppend(conns[1..], c, server);
    }
  }

  /**
   * One post per active connection: a step posts exactly as many times as
   * GetConnections lists active connections, so with PostsAreActive no
   * active connection is skipped or posted to twice.
   */
  lemma {:induction false} PostsOnePerActive(conns: seq<Connection>, server: bool)
    ensures |Posts(conns, server)| == |ActiveInfos(conns)|
    decreases |conns|
  {
    if |conns| > 0 {
      var init := conns[..|conns| - 1];
      var last := conns[|conns| - 1];
      PostsOnePerActive(init, server);
      assert init + [last] == conns;
      PostsAppend(init, last, server);
    }
  }

  /** Some connection in the list is Dead. */
  predicate SomeDead(conns: seq<Connection>) {
    exists i :: 0 <= i < |conns| && conns[i].state == Dead
  }

  /**
   * The reconnect decision of one dispatch step: a client with a Dead
   * connection asks for a reconnect unless one is already in progress. The
   * second component says whether the reconnect signal was raised.
   */
  function ReconnectDecision(d: Dispatcher): (r: (Dispatcher, bool))
    ensures r.1 <==> !d.server && SomeDead(d.connections) && !d.doReconnect
    ensures r.1 ==> r.0 == d.(doReconnect := true)
    ensures !r.1 ==> r.0 == d
  {
    var reconnect := !d.server && FirstDead(d.connections) < |d.connections|;
    if reconnect && !d.doReconnect then (d.(doReconnect := true), true) else (d, false)
  }

  /** The signal is raised at most once: until the client loop clears the request, later steps stay quiet. */
  lemma ReconnectSignalledOnce(d: Dispatcher)
    ensures !ReconnectDecision(ReconnectDecision(d).0).1
  {
  }

  /**
   * The loop's deadline: a late start moves it up to the start, then it
   * advances by the update rate; the wait is never shorter than the rate.
   */
  function NextTimeout(timeout: int, start: int, updateRate: nat): (r: int)
    ensures r - start >= updateRate
    ensures r >= timeout + updateRate
    ensures r == timeout + updateRate || r == start + updateRate
  {
    (if start > timeout then start else timeout) + updateRate
  }

  const SaveInterval: int := 1000

  /**
   * The periodic persistent save: a server with a persistence file saves
   * once `start` passes the next save time, which then advances by one
   * second, or to one second after `start` when the loop has fallen behind.
   */
  function SaveStep(server: bool, hasFile: bool, start: int, nextSave: int): (r: (bool, int))
    ensures r.0 <==> server && hasFile && start > nextSave
    ensures !r.0 ==> r.1 == nextSave
    ensures r.0 ==> nextSave < r.1 && start <= r.1 <= start + SaveInterval
  {
    if server && hasFile && start > nextSave then
      var next := nextSave + SaveInterval;
      (true, if start > next then start + SaveInterval else next)
    else (false, nextSave)
  }
}

=== FILE: handshake.dfy ===
/**
 * The client and server handshakes of DispatcherBase, as pure functions of
 * the messages the peer sends. `getMsg()` returning null (the peer
 * disconnected) is reading past the end of the incoming sequence. The
 * abstract Storage appears twice: the initial assignments the server
 * sends are a parameter, and so is the reply ApplyInitialAssignments builds
 * on the client. Every call made to Storage is recorded in order.
 */
module Handshakes {
  import opened Wrappers
  import opened Values
  import opened Messages

  /** The conversion `(int)msg.Id`: an unsigned 32-bit id read as a signed one. */
  function AsInt32(id: Uint32): (r: int)
    ensures -0x8000_0000 <= r < 0x8000_0000
    ensures r % Uint32Limit == id
  {
    if id < 0x8000_0000 then id else id - Uint32Limit
  }

  /** A call the handshake makes on Storage. */
  datatype StorageCall =
    | GetInitialAssignments
    | ApplyInitialAssignments(entries: seq<Message>, newServer: bool)
    | ProcessIncoming(msg: Message)

  /**
   * The outcome of a handshake: whether it succeeded, the batches handed to
   * sendMsgs, the Storage calls, the connection afterwards, and the
   * revision of a reconnect the handshake asked for (ClientReconnect).
   */
  datatype Outcome = Outcome(
    ok: bool,
    sent: seq<seq<Message>>,
    calls: seq<StorageCall>,
    conn: Connection,
    reconnect: Option<int>)

  /**
   * The messages from `start` on are a run of EntryAssign messages ended,
   * at index `end`, by a message of type `done`.
   */
  ghost predicate Framed(incoming: seq<Message>, start: nat, end: nat, done: MsgType) {
    && start <= end < |incoming|
    && incoming[end].msgType == done
    && forall i :: start <= i < end ==> incoming[i].msgType == EntryAssign
  }

  /** A run has at most one end. */
  lemma FramedEndIsUnique(incoming: seq<Message>, start: nat, end1: nat, end2: nat, done: MsgType)
    requires done != EntryAssign
    requires Framed(incoming, start, end1, done) && Framed(incoming, start, end2, done)
    ensures end1 == end2
  {
  }

  datatype Collection = Collected(entries: seq<Message>, end: nat) | Broken

  /**
   * The collecting loop of both handshakes: read EntryAssign messages until
   * one of type `done`; a disconnect or any other type breaks the loop.
   */
  function Collect(incoming: seq<Message>, start: nat, done: MsgType): (r: Collection)
    requires done != EntryAssign
    ensures r.Collected? ==> Framed(incoming, start, r.end, done) && r.entries == incoming[start..r.end]
    ensures r.Broken? ==> forall end :: !Framed(incoming, start, end, done)
    decreases |incoming| - start
  {
    if start >= |incoming| then Broken
    else if incoming[start].msgType == done then Collected([], start)
    else if incoming[start].msgType != EntryAssign then Broken
    else
      match Collect(incoming, start + 1, done)
      case Collected(entries, end) =>
        assert incoming[start..end] == [incoming[start]] + incoming[start + 1..end];
        Collected([incoming[start]] + entries, end)
      case Broken =>
        NoEndBeforeNoEnd(incoming, start, start + 1, done);
        Broken
  }

  /** A run that cannot be closed after its first EntryAssign cannot be closed at all. */
  lemma NoEndBeforeNoEnd(incoming: seq<Message>, start: nat, next: nat, done: MsgType)
    requires done != EntryAssign
    requires start < |incoming| && incoming[start].msgType == EntryAssign && next == start + 1
    requires forall end :: !Framed(incoming, next, end, done)
    ensures forall end :: !Framed(incoming, start, end, done)
  {
    forall end: nat | Framed(incoming, start, end, done)
      ensures false
    {
      assert Framed(incoming, next, end, done);
    }
  }

  /** One ProcessIncoming call per message, in order. */
  function ProcessAll(ms: seq<Message>): (r: seq<StorageCall>)
    ensures |r| == |ms|
    ensures forall i :: 0 <= i < |ms| ==> r[i] == ProcessIncoming(ms[i])
  {
    if |ms| == 0 then [] else [ProcessIncoming(ms[0])] + ProcessAll(ms[1..])
  }

  /** The batch the server sends once it accepts a hello. */
  function ServerBatch(protoRev: int, identity: string, snapshot: seq<Message>): (r: seq<Message>)
    ensures |r| >= |snapshot| + 1
    ensures r[|r| - 1] == ServerHelloDoneMessage()
    ensures protoRev >= Rev3 ==> r == [ServerHelloMessage(0, identity)] + snapshot + [ServerHelloDoneMessage()]
    ensures protoRev < Rev3 ==> r == snapshot + [ServerHelloDoneMessage()]
  {
    (if protoRev >= Rev3 then [ServerHelloMessage(0, identity)] else []) + snapshot + [ServerHelloDoneMessage()]
  }

  /** The hello was present, was a ClientHello, and asked for a revision the server speaks. */
  predicate HelloAccepted(incoming: seq<Message>) {
    |incoming| > 0 && incoming[0].msgType == ClientHello && AsInt32(incoming[0].id) <= Rev3
  }

  /**
   * ServerHandshake. `snapshot` is what GetInitialAssignments adds to the
   * outgoing batch.
   */
  function ServerHandshake(conn: Connection, identity: string, snapshot: seq<Message>, incoming: seq<Message>)
    : (r: Outcome)
    ensures r.reconnect.None?
    ensures (|incoming| == 0 || incoming[0].msgType != ClientHello) ==>
      !r.ok && r.sent == [] && r.calls == [] && r.conn == conn
    ensures |incoming| > 0 && incoming[0].msgType == ClientHello && AsInt32(incoming[0].id) > Rev3 ==>
      !r.ok && r.sent == [[ProtoUnsupMessage()]] && r.calls == [] && r.conn == conn
    ensures HelloAccepted(incoming) ==>
      var rev := AsInt32(incoming[0].id);
      && r.conn.protoRev == rev
      && r.conn.remoteId == (if rev >= Rev3 then incoming[0].str else conn.remoteId)
      && r.conn.handle == conn.handle && r.conn.state == conn.state
      && r.sent == [ServerBatch(rev, identity, snapshot)]
      && |r.calls| >= 1 && r.calls[0] == GetInitialAssignments
  {
    if |incoming| == 0 || incoming[0].msgType != ClientHello then
      Outcome(false, [], [], conn, None)
    else
      var hello := incoming[0];
      var protoRev := AsInt32(hello.id);
      if protoRev > Rev3 then
        Outcome(false, [[ProtoUnsupMessage()]], [], conn, None)
      else
        var named := if protoRev >= Rev3 then conn.(remoteId := hello.str) else conn;
        var conn' := named.(protoRev := protoRev);
        var sent := [ServerBatch(protoRev, identity, snapshot)];
        if protoRev < Rev3 then
          Outcome(true, sent, [GetInitialAssignments], conn', None)
        else
          match Collect(incoming, 1, ClientHelloDone)
          case Broken => Outcome(false, sent, [GetInitialAssignments], conn', None)
          case Collected(entries, _) =>
            Outcome(true, sent, [GetInitialAssignments] + ProcessAll(entries), conn', None)
  }

  /**
   * The server accepts exactly when the hello is accepted and, from
   * revision 3.0 on, the client then sends a run of EntryAssign messages
   * closed by ClientHelloDone.
   */
  lemma ServerAcceptsExactly(conn: Connection, identity: string, snapshot: seq<Message>, incoming: seq<Message>)
    ensures ServerHandshake(conn, identity, snapshot, incoming).ok <==>
      && HelloAccepted(incoming)
      && (AsInt32(incoming[0].id) >= Rev3 ==> exists end :: Framed(incoming, 1, end, ClientHelloDone))
  {
    if HelloAccepted(incoming) && AsInt32(incoming[0].id) >= Rev3 {
      var c := Collect(incoming, 1, ClientHelloDone);
      if c.Collected? {
        assert Framed(incoming, 1, c.end, ClientHelloDone);
      }
    }
  }

  /**
   * What the server hands to ProcessIncoming: nothing unless the handshake
   * succeeds; on success at revision 3.0 or later, every EntryAssign the
   * client sent before ClientHelloDone, in arrival order.
   */
  lemma ServerProcessesInOrder(conn: Connection, identity: string, snapshot: seq<Message>, incoming: seq<Message>)
    ensures var r := ServerHandshake(conn, identity, snapshot, incoming);
      !r.ok ==> forall i :: 0 <= i < |r.calls| ==> !r.calls[i].ProcessIncoming?
    ensures var r := ServerHandshake(conn, identity, snapshot, incoming);
      r.ok && AsInt32(incoming[0].id) < Rev3 ==> r.calls == [GetInitialAssignments]
    ensures var r := ServerHandshake(conn, identity, snapshot, incoming);
      forall end: nat :: r.ok && AsInt32(incoming[0].id) >= Rev3 && Framed(incoming, 1, end, ClientHelloDone) ==>
        r.calls == [GetInitialAssignments] + ProcessAll(incoming[1..end])
  {
    var r := ServerHandshake(conn, identity, snapshot, incoming);
    if HelloAccepted(incoming) && AsInt32(incoming[0].id) >= Rev3 {
      var c := Collect(incoming, 1, ClientHelloDone);
      if c.Collected? {
        forall end: nat | Framed(incoming, 1, end, ClientHelloDone)
          ensures r.calls == [GetInitialAssignments] + ProcessAll(incoming[1..end])
        {
          FramedEndIsUnique(incoming, 1, end, c.end, ClientHelloDone);
        }
      }
    }
  }

  /** Where the client's collecting loop starts: after ServerHello from revision 3.0 on. */
  function ClientCollectStart(protoRev: int): nat {
    if protoRev >= Rev3 then 1 else 0
  }

  /** Whether the server reported that it is new: flag bit 0 clear (only ServerHello carries it). */
  function NewServer(protoRev: int, first: Message): bool {
    protoRev < Rev3 || first.flags % 2 == 0
  }

  /** The first reply neither refuses the revision nor, from 3.0 on, lacks ServerHello. */
  predicate ReplyAccepted(protoRev: int, incoming: seq<Message>) {
    && |incoming| > 0
    && incoming[0].msgType != ProtoUnsup
    && (protoRev >= Rev3 ==> incoming[0].msgType == ServerHello)
  }

  /**
   * ClientHandshake. `apply` is what ApplyInitialAssignments adds to the
   * outgoing list for the collected assignments and the newServer flag.
   */
  function ClientHandshake(
    conn: Connection, identity: string, apply: (seq<Message>, bool) -> seq<Message>, incoming: seq<Message>)
    : (r: Outcome)
    ensures |r.sent| >= 1 && r.sent[0] == [ClientHelloMessage(identity)]
    ensures r.conn.handle == conn.handle && r.conn.state == conn.state && r.conn.protoRev == conn.protoRev
    ensures |incoming| > 0 && incoming[0].msgType == ProtoUnsup ==>
      && !r.ok && r.calls == [] && r.sent == [[ClientHelloMessage(identity)]]
      && r.reconnect == (if incoming[0].id == Rev2 then Some(Rev2) else None)
    ensures r.reconnect.Some? ==> |incoming| > 0 && incoming[0].msgType == ProtoUnsup && incoming[0].id == Rev2
    ensures !r.ok ==> r.calls == [] && |r.sent| == 1
    ensures r.ok ==> ReplyAccepted(conn.protoRev, incoming)
    ensures r.ok && conn.protoRev >= Rev3 ==> r.conn.remoteId == incoming[0].str
  {
    var hello := [ClientHelloMessage(identity)];
    if |incoming| == 0 then
      Outcome(false, [hello], [], conn, None)
    else if incoming[0].msgType == ProtoUnsup then
      Outcome(false, [hello], [], conn, if incoming[0].id == Rev2 then Some(Rev2) else None)
    else if conn.protoRev >= Rev3 && incoming[0].msgType != ServerHello then
      Outcome(false, [hello], [], conn, None)
    else
      var conn' := if conn.protoRev >= Rev3 then conn.(remoteId := incoming[0].str) else conn;
      var newServer := NewServer(conn.protoRev, incoming[0]);
      match Collect(incoming, ClientCollectStart(conn.protoRev), ServerHelloDone)
      case Broken => Outcome(false, [hello], [], conn', None)
      case Collected(entries, _) =>
        var outgoing := apply(entries, newServer) + (if conn.protoRev >= Rev3 then [ClientHelloDoneMessage()] else []);
        Outcome(true, [hello] + (if |outgoing| == 0 then [] else [outgoing]),
                [ApplyInitialAssignments(entries, newServer)], conn', None)
  }

  /**
   * The client accepts exactly when the first reply is accepted and the
   * server then sends a run of EntryAssign messages closed by
   * ServerHelloDone.
   */
  lemma ClientAcceptsExactly(
    conn: Connection, identity: string, apply: (seq<Message>, bool) -> seq<Message>, incoming: seq<Message>)
    ensures ClientHandshake(conn, identity, apply, incoming).ok <==>
      && ReplyAccepted(conn.protoRev, incoming)
      && exists end :: Framed(incoming, ClientCollectStart(conn.protoRev), end, ServerHelloDone)
  {
    if ReplyAccepted(conn.protoRev, incoming) {
      var c := Collect(incoming, ClientCollectStart(conn.protoRev), ServerHelloDone);
      if c.Collected? {
        assert Framed(incoming, ClientCollectStart(conn.protoRev), c.end, ServerHelloDone);
      }
    }
  }

  /**
   * On success the client calls ApplyInitialAssignments once, with every
   * EntryAssign before ServerHelloDone and newServer true exactly when flag
   * bit 0 of ServerHello is clear; from revision 3.0 on ClientHelloDone is
   * the last message it sends, and it sends a second batch only when the
   * reply list is not empty.
   */
  lemma ClientAppliesAssignments(
    conn: Connection, identity: string, apply: (seq<Message>, bool) -> seq<Message>, incoming: seq<Message>,
    end: nat)
    requires ReplyAccepted(conn.protoRev, incoming)
    requires Framed(incoming, ClientCollectStart(conn.protoRev), end, ServerHelloDone)
    ensures var r := ClientHandshake(conn, identity, apply, incoming);
      var entries := incoming[ClientCollectStart(conn.protoRev)..end];
      var newServer := conn.protoRev < Rev3 || incoming[0].flags % 2 == 0;
      var outgoing := apply(entries, newServer);
      && r.ok
      && r.calls == [ApplyInitialAssignments(entries, newServer)]
      && (conn.protoRev >= Rev3 ==>
            |r.sent| == 2 && r.sent[1] == outgoing + [ClientHelloDoneMessage()])
      && (conn.protoRev < Rev3 ==>
            r.sent == [[ClientHelloMessage(identity)]] + (if |outgoing| == 0 then [] else [outgoing]))
  {
    var c := Collect(incoming, ClientCollectStart(conn.protoRev), ServerHelloDone);
    if c.Broken? {
      assert false;
    } else {
      FramedEndIsUnique(incoming, ClientCollectStart(conn.protoRev), end, c.end, ServerHelloDone);
      var outgoing := apply(c.entries, NewServer(conn.protoRev, incoming[0]));
      assert outgoing + [] == outgoing;
    }
  }
}

=== FILE: messages.dfy ===
/**
 * The protocol messages and connection states the dispatcher works with.
 * Only the fields the dispatcher reads or sets are modelled: type, id,
 * string, flags and sequence number / unique id.
 */
module Messages {
  /** Unsigned 32-bit message ids, as carried by Message.Id. */
  const Uint32Limit: nat := 0x1_0000_0000
  type Uint32 = x: nat | x < Uint32Limit

  datatype MsgType =
    | KeepAlive
    | ClientHello
    | ProtoUnsup
    | ServerHelloDone
    | ServerHello
    | ClientHelloDone
    | EntryAssign
    | EntryUpdate
    | FlagsUpdate
    | EntryDelete
    | ClearEntries
    | ExecuteRpc
    | RpcResponse

  datatype Message = Message(msgType: MsgType, id: Uint32, str: string, flags: nat, seqNumUid: nat)

  /**
   * The message factories the handshakes use. Fields a factory does not
   * set are zero or empty.
   */
  function ClientHelloMessage(selfId: string): (m: Message)
    ensures m.msgType == ClientHello && m.str == selfId
  {
    Message(ClientHello, 0, selfId, 0, 0)
  }

  function ProtoUnsupMessage(): (m: Message)
    ensures m.msgType == ProtoUnsup
  {
    Message(ProtoUnsup, 0, "", 0, 0)
  }

  function ServerHelloMessage(flags: nat, selfId: string): (m: Message)
    ensures m.msgType == ServerHello && m.flags == flags && m.str == selfId
  {
    Message(ServerHello, 0, selfId, flags, 0)
  }

  function ServerHelloDoneMessage(): (m: Message)
    ensures m.msgType == ServerHelloDone
  {
    Message(ServerHelloDone, 0, "", 0, 0)
  }

  function ClientHelloDoneMessage(): (m: Message)
    ensures m.msgType == ClientHelloDone
  {
    Message(ClientHelloDone, 0, "", 0, 0)
  }

  /** NetworkConnection.State. */
  datatype ConnState = Created | Init | Handshake | Synchronized | Active | Dead

  /**
   * What the dispatcher sees of a NetworkConnection: an identity (object
   * identity in the source), its state, the protocol revision it speaks and
   * the identity its peer announced.
   */
  datatype Connection = Connection(handle: nat, state: ConnState, protoRev: int, remoteId: string)

  /**
   * ConnectionInfo, which the dispatcher copies from each connection: the
   * record keeps only its remote id and protocol version.
   */
  datatype ConnectionInfo = ConnectionInfo(remoteId: string, protocolVersion: int)

  function Info(c: Connection): ConnectionInfo {
    ConnectionInfo(c.remoteId, c.protoRev)
  }
}

=== FILE: table.dfy ===
/**
 * The path layer of IndependentNetworkTable: a table is a path, and every
 * per-key operation addresses the entry `path + '/' + key` of the core.
 * The core (IndependentNtCore and its Storage) is modelled as a map from
 * entry name to value and flags. The core calls whose code is not part of
 * this model (GetEntryInfo, GetEntryFlags, SetEntryFlags, SetEntryValue,
 * DeleteEntry) are given the behaviour stated on each; those statements
 * are the model's assumptions about the core.
 */
module Table {
  import opened Values

  const PathSeparator: char := '/'

  /** EntryFlags; Persistent is bit 0. */
  const Persistent: bv32 := 1

  datatype Entry = Entry(value: Value, flags: bv32)

  type Core = map<string, Entry>

  /** A table: the path it was opened at. */
  datatype NetworkTable = NetworkTable(path: string)

  /** The name of the entry `key` of the table at `path`. */
  function FullName(path: string, key: string): (r: string)
    ensures |r| == |path| + 1 + |key|
    ensures r[..|path| + 1] == path + [PathSeparator] && r[|path| + 1..] == key
  {
    path + [PathSeparator] + key
  }

  /**
   * GetSubTable: the table whose path is the entry name of `key`. Addressing
   * through it is addressing the joined key: `a/b` then `c` is `a/(b/c)`.
   */
  function GetSubTable(t: NetworkTable, key: string): (r: NetworkTable)
    ensures forall k :: FullName(r.path, k) == FullName(t.path, key + [PathSeparator] + k)
  {
    NetworkTable(FullName(t.path, key))
  }

  /** The bit of each value type in an NtType mask; Unassigned has none. */
  function TypeBit(t: NtType): bv32 {
    match t
    case Unassigned => 0
    case Boolean => 0x01
    case Double => 0x02
    case String => 0x04
    case Raw => 0x08
    case BooleanArray => 0x10
    case DoubleArray => 0x20
    case StringArray => 0x40
    case Rpc => 0x80
  }

  /** A type mask of 0 accepts every entry; any other mask accepts the types whose bit it has. */
  predicate TypeMatches(e: Entry, types: bv32) {
    types == 0 || TypeBit(e.value.Type()) & types != 0
  }

  /** GetEntryInfo (assumed): the names of the entries that start with `prefix` and match the type mask. */
  function GetEntryInfo(core: Core, prefix: string, types: bv32): (r: set<string>)
    ensures forall name :: name in r <==> name in core && prefix <= name && TypeMatches(core[name], types)
  {
    set name | name in core && prefix <= name && TypeMatches(core[name], types)
  }

  /** String.IndexOf for a character: the first position of `c`, or -1. */
  function IndexOf(s: string, c: char): (r: int)
    ensures -1 <= r < |s|
    ensures r == -1 <==> c !in s
    ensures r >= 0 ==> s[r] == c && c !in s[..r]
    ensures forall j :: 0 <= j < r ==> s[j] != c
  {
    if |s| == 0 then -1
    else if s[0] == c then 0
    else
      var i := IndexOf(s[1..], c);
      assert i >= 0 ==> s[..i + 1] == [s[0]] + s[1..][..i];
      if i == -1 then -1 else i + 1
  }

  /** The first separator of `a + '/' + b` is the one after `a` when `a` has none. */
  lemma IndexOfJoin(a: string, b: string)
    requires PathSeparator !in a
    ensures IndexOf(a + [PathSeparator] + b, PathSeparator) == |a|
  {
    var s := a + [PathSeparator] + b;
    assert s[|a|] == PathSeparator;
    assert forall j :: 0 <= j < |a| ==> s[j] == a[j];
  }

  /** The name below the table's prefix: `Substring(path.Length + 1)`. */
  function Relative(path: string, name: string): string
    requires |name| > |path|
  {
    name[|path| + 1..]
  }

  /** GetKeys: the relative names, without a further separator, of the entries under the table. */
  function GetKeys(core: Core, path: string, types: bv32): set<string> {
    set name | name in GetEntryInfo(core, path + [PathSeparator], types)
                 && IndexOf(Relative(path, name), PathSeparator) == -1
      :: Relative(path, name)
  }

  /** A key is listed exactly when its entry exists, has no separator in it, and matches the mask. */
  lemma GetKeysExactly(core: Core, path: string, types: bv32, key: string)
    ensures key in GetKeys(core, path, types) <==>
      && FullName(path, key) in core
      && PathSeparator !in key
      && TypeMatches(core[FullName(path, key)], types)
  {
    var name := FullName(path, key);
    if key in GetKeys(core, path, types) {
      var n :| n in GetEntryInfo(core, path + [PathSeparator], types)
                && IndexOf(Relative(path, n), PathSeparator) == -1
                && Relative(path, n) == key;
      assert n == n[..|path| + 1] + n[|path| + 1..];
      assert n == name;
    }
    if name in core && PathSeparator !in key && TypeMatches(core[name], types) {
      assert name in GetEntryInfo(core, path + [PathSeparator], types);
      assert Relative(path, name) == key;
    }
  }

  /** ContainsKey: the entry exists. */
  function ContainsKey(core: Core, path: string, key: string): bool {
    FullName(path, key) in core
  }

  /** ContainsSubTable: some entry lies under `path/key/`. */
  function ContainsSubTable(core: Core, path: string, key: string): bool {
    GetEntryInfo(core, FullName(path, key) + [PathSeparator], 0) != {}
  }

  lemma ContainsSubTableExactly(core: Core, path: string, key: string)
    ensures ContainsSubTable(core, path, key) <==>
      exists name :: name in core && FullName(path, key) + [PathSeparator] <= name
  {
    var prefix := FullName(path, key) + [PathSeparator];
    if exists name :: name in core && prefix <= name {
      var name :| name in core && prefix <= name;
      assert name in GetEntryInfo(core, prefix, 0);
    }
  }

  /** The part of a relative name before its first separator. */
  function FirstSegment(rel: string): string
    requires PathSeparator in rel
  {
    rel[..IndexOf(rel, PathSeparator)]
  }

  /** GetSubTables: the first segments of the relative names that have a separator. */
  function GetSubTables(core: Core, path: string): set<string> {
    set name | name in GetEntryInfo(core, path + [PathSeparator], 0)
                 && IndexOf(Relative(path, name), PathSeparator) != -1
      :: FirstSegment(Relative(path, name))
  }

  /** A listed sub-table has no separator and has an entry under it. */
  lemma ListedSubTable(core: Core, path: string, sub: string)
    requires sub in GetSubTables(core, path)
    ensures PathSeparator !in sub
    ensures exists name :: name in core && FullName(path, sub) + [PathSeparator] <= name
  {
    var n :| n in GetEntryInfo(core, path + [PathSeparator], 0)
              && IndexOf(Relative(path, n), PathSeparator) != -1
              && FirstSegment(Relative(path, n)) == sub;
    var rel := Relative(path, n);
    var i := IndexOf(rel, PathSeparator);
    assert rel == sub + [PathSeparator] + rel[i + 1..];
    assert n == path + [PathSeparator] + rel;
    assert FullName(path, sub) + [PathSeparator] <= n;
  }

  /** A name without a separator that has an entry under it is listed as a sub-table. */
  lemma SubTableIsListed(core: Core, path: string, sub: string, n: string)
    requires PathSeparator !in sub
    requires n in core && FullName(path, sub) + [PathSeparator] <= n
    ensures sub in GetSubTables(core, path)
  {
    var prefix := FullName(path, sub) + [PathSeparator];
    var rel := Relative(path, n);
    assert rel == sub + [PathSeparator] + n[|prefix|..];
    IndexOfJoin(sub, n[|prefix|..]);
    assert n in GetEntryInfo(core, path + [PathSeparator], 0);
    assert FirstSegment(rel) == sub;
  }

  /** A name is listed as a sub-table exactly when it has no separator and ContainsSubTable holds for it. */
  lemma GetSubTablesExactly(core: Core, path: string, sub: string)
    ensures sub in GetSubTables(core, path) <==> PathSeparator !in sub && ContainsSubTable(core, path, sub)
  {
    ContainsSubTableExactly(core, path, sub);
    if sub in GetSubTables(core, path) {
      ListedSubTable(core, path, sub);
    }
    if PathSeparator !in sub && ContainsSubTable(core, path, sub) {
      var n :| n in core && FullName(path, sub) + [PathSeparator] <= n;
      SubTableIsListed(core, path, sub, n);
    }
  }

  /** An entry under `path/s/` has a separator in its name relative to `path`. */
  lemma UnderSubTable(path: string, s: string, name: string)
    requires FullName(path, s) + [PathSeparator] <= name
    ensures |name| > |path| && PathSeparator in Relative(path, name)
  {
    assert Relative(path, name)[|s|] == PathSeparator;
  }

  /**
   * Every entry under the table shows up in exactly one of GetKeys (as its
   * own key) and GetSubTables (as the sub-table it lies in).
   */
  lemma KeysAndSubTablesPartition(core: Core, path: string, name: string)
    requires name in core && path + [PathSeparator] <= name
    ensures var asKey := exists k :: k in GetKeys(core, path, 0) && name == FullName(path, k);
      var asSubTable := exists s :: s in GetSubTables(core, path) && FullName(path, s) + [PathSeparator] <= name;
      asKey != asSubTable
  {
    var rel := Relative(path, name);
    assert name == path + [PathSeparator] + rel;
    forall s | s in GetSubTables(core, path) && FullName(path, s) + [PathSeparator] <= name
      ensures PathSeparator in rel
    {
      UnderSubTable(path, s, name);
    }
    forall k | k in GetKeys(core, path, 0) && name == FullName(path, k)
      ensures PathSeparator !in rel
    {
      GetKeysExactly(core, path, 0, k);
      assert k == rel;
    }
    if PathSeparator !in rel {
      GetKeysExactly(core, path, 0, rel);
      assert rel in GetKeys(core, path, 0) && name == FullName(path, rel);
    } else {
      var s := FirstSegment(rel);
      var i := IndexOf(rel, PathSeparator);
      assert rel == s + [PathSeparator] + rel[i + 1..];
      assert FullName(path, s) + [PathSeparator] <= name;
      ContainsSubTableExactly(core, path, s);
      GetSubTablesExactly(core, path, s);
    }
  }

  // ---------------------------------------------------------------------
  // Flags
  // ---------------------------------------------------------------------

  /** GetFlags (the core's GetEntryFlags, assumed): 0 for a missing entry. */
  function GetFlags(core: Core, path: string, key: string): bv32 {
    var name := FullName(path, key);
    if name in core then core[name].flags else 0
  }

  /** The core's SetEntryFlags (assumed): a missing entry is left missing. */
  function SetEntryFlags(core: Core, name: string, flags: bv32): (r: Core)
    ensures r.Keys == core.Keys
    ensures forall n :: n in core && n != name ==> r[n] == core[n]
    ensures name in core ==> r[name] == core[name].(flags := flags)
  {
    if name in core then core[name := core[name].(flags := flags)] else core
  }

  /** SetFlags: the entry's flags become the old ones with `flags` added. */
  function SetFlags(core: Core, path: string, key: string, flags: bv32): (r: Core)
    ensures r.Keys == core.Keys
    ensures forall n :: n in core && n != FullName(path, key) ==> r[n] == core[n]
    ensures ContainsKey(core, path, key) ==>
      && r[FullName(path, key)].value == core[FullName(path, key)].value
      && r[FullName(path, key)].flags == core[FullName(path, key)].flags | flags
  {
    SetEntryFlags(core, FullName(path, key), GetFlags(core, path, key) | flags)
  }

  /** ClearFlags: the entry's flags become the old ones with `flags` removed. */
  function ClearFlags(core: Core, path: string, key: string, flags: bv32): (r: Core)
    ensures r.Keys == core.Keys
    ensures forall n :: n in core && n != FullName(path, key) ==> r[n] == core[n]
    ensures ContainsKey(core, path, key) ==>
      && r[FullName(path, key)].value == core[FullName(path, key)].value
      && r[FullName(path, key)].flags == core[FullName(path, key)].flags & !flags
  {
    SetEntryFlags(core, FullName(path, key), GetFlags(core, path, key) & !flags)
  }

  lemma OrTwice(f: bv32, g: bv32)
    ensures (f | g) | g == f | g
  {
  }

  lemma AndNotTwice(f: bv32, g: bv32)
    ensures (f & !g) & !g == f & !g
  {
  }

  lemma AndNotAfterOr(f: bv32, g: bv32)
    ensures (f | g) & !g == f & !g
  {
  }

  lemma PersistentBits(f: bv32)
    ensures (f | Persistent) & Persistent == Persistent
    ensures (f & !Persistent) & Persistent == 0
  {
  }

  /** Setting the same flags twice is setting them once. */
  lemma SetFlagsIsIdempotent(core: Core, path: string, key: string, flags: bv32)
    ensures SetFlags(SetFlags(core, path, key, flags), path, key, flags) == SetFlags(core, path, key, flags)
  {
    var name := FullName(path, key);
    if name in core {
      OrTwice(core[name].flags, flags);
    }
  }

  /** Clearing the same flags twice is clearing them once. */
  lemma ClearFlagsIsIdempotent(core: Core, path: string, key: string, flags: bv32)
    ensures ClearFlags(ClearFlags(core, path, key, flags), path, key, flags) == ClearFlags(core, path, key, flags)
  {
    var name := FullName(path, key);
    if name in core {
      AndNotTwice(core[name].flags, flags);
    }
  }

  /** Clearing what was just set leaves the other bits as they were and those bits clear. */
  lemma ClearUndoesSet(core: Core, path: string, key: string, flags: bv32)
    requires ContainsKey(core, path, key)
    ensures GetFlags(ClearFlags(SetFlags(core, path, key, flags), path, key, flags), path, key)
         == GetFlags(core, path, key) & !flags
  {
    AndNotAfterOr(core[FullName(path, key)].flags, flags);
  }

  function SetPersistent(core: Core, path: string, key: string): Core {
    SetFlags(core, path, key, Persistent)
  }

  function ClearPersistent(core: Core, path: string, key: string): Core {
    ClearFlags(core, path, key, Persistent)
  }

  /** IsPersistent: `HasFlag(Persistent)`, so every Persistent bit is set. */
  function IsPersistent(core: Core, path: string, key: string): bool {
    GetFlags(core, path, key) & Persistent == Persistent
  }

  /**
   * After SetPersistent the entry is persistent exactly when it exists;
   * after ClearPersistent it is not; neither touches the other flags.
   */
  lemma PersistentFlag(core: Core, path: string, key: string)
    ensures IsPersistent(SetPersistent(core, path, key), path, key) <==> ContainsKey(core, path, key)
    ensures !IsPersistent(ClearPersistent(core, path, key), path, key)
    ensures GetFlags(SetPersistent(core, path, key), path, key) & !Persistent
         == GetFlags(core, path, key) & !Persistent
  {
    var name := FullName(path, key);
    if name in core {
      PersistentBits(core[name].flags);
      AndNotAfterOr(core[name].flags, Persistent);
    }
  }

  // ---------------------------------------------------------------------
  // Values
  // ---------------------------------------------------------------------

  /**
   * The core's SetEntryValue (assumed): a new name is created with no flags;
   * an existing entry takes a value of its own type and keeps its flags; a
   * value of another type is refused and nothing changes.
   */
  function SetEntryValue(core: Core, name: string, v: Value): (bool, Core) {
    if name !in core then (true, core[name := Entry(v, 0)])
    else if core[name].value.Type() != v.Type() then (false, core)
    else (true, core[name := core[name].(value := v)])
  }

  /** PutValue: store `v` under `key`; false when the entry holds a value of another type. */
  function PutValue(core: Core, path: string, key: string, v: Value): (r: (bool, Core))
    ensures r.0 <==> !ContainsKey(core, path, key) || core[FullName(path, key)].value.Type() == v.Type()
    ensures !r.0 ==> r.1 == core
    ensures r.1.Keys == core.Keys + {FullName(path, key)}
    ensures forall n :: n in core && n != FullName(path, key) ==> r.1[n] == core[n]
  {
    SetEntryValue(core, FullName(path, key), v)
  }

  /** GetValue with a default: the stored value, or the default when the entry is missing. */
  function GetValue(core: Core, path: string, key: string, defaultValue: Value): Value {
    var name := FullName(path, key);
    if name in core then core[name].value else defaultValue
  }

  /** Delete: the entry is removed (the core's DeleteEntry, assumed). */
  function Delete(core: Core, path: string, key: string): (r: Core)
    ensures r.Keys == core.Keys - {FullName(path, key)}
    ensures forall n :: n in r ==> r[n] == core[n]
  {
    core - {FullName(path, key)}
  }

  /** A stored value reads back, whatever the default; a refused one leaves the old value. */
  lemma PutThenGet(core: Core, path: string, key: string, v: Value, defaultValue: Value)
    ensures var r := PutValue(core, path, key, v);
      && (r.0 ==> ContainsKey(r.1, path, key) && GetValue(r.1, path, key, defaultValue) == v)
      && (r.0 && ContainsKey(core, path, key) ==> GetFlags(r.1, path, key) == GetFlags(core, path, key))
      && (!r.0 ==> GetValue(r.1, path, key, defaultValue) == GetValue(core, path, key, defaultValue))
  {
  }

  /** After Delete the key is gone and reads as the default; other keys keep their entries. */
  lemma DeleteThenGet(core: Core, path: string, key: string, other: string, defaultValue: Value)
    requires other != key
    ensures !ContainsKey(Delete(core, path, key), path, key)
    ensures GetValue(Delete(core, path, key), path, key, defaultValue) == defaultValue
    ensures GetValue(Delete(core, path, key), path, other, defaultValue) == GetValue(core, path, other, defaultValue)
  {
    assert FullName(path, other)[|path| + 1..] != FullName(path, key)[|path| + 1..];
  }
}

=== FILE: table_listeners.dfy ===
/**
 * The listener layer of IndependentNetworkTable: the adapters that turn the
 * core's entry notifications into table notifications, the per-listener
 * bookkeeping of adapter ids, and the connection-listener registry.
 *
 * The core's AddEntryListener is assumed to hand out a fresh id and to call
 * an adapter only for names that start with the prefix it was registered
 * with; RemoveEntryListener and RemoveConnectionListener are assumed to
 * unregister the id they are given.
 */
module TableListeners {
  import opened Wrappers
  import opened Values
  import opened Table
  import opened Messages
  import Dispatcher

  // ---------------------------------------------------------------------
  // Notify flags
  // ---------------------------------------------------------------------

  const NotifyImmediate: bv32 := 0x01
  const NotifyLocal: bv32 := 0x02
  const NotifyNew: bv32 := 0x04
  const NotifyDelete: bv32 := 0x08
  const NotifyUpdate: bv32 := 0x10
  const NotifyFlagsChanged: bv32 := 0x20

  /** The flags AddTableListener registers with: new and updated values, and the current ones at once if asked. */
  function TableListenerFlags(immediateNotify: bool): bv32 {
    if immediateNotify then NotifyNew | NotifyUpdate | NotifyImmediate else NotifyNew | NotifyUpdate
  }

  /** The flags AddSubTableListener registers with: new and updated values, and local changes if asked. */
  function SubTableListenerFlags(localNotify: bool): bv32 {
    if localNotify then NotifyNew | NotifyUpdate | NotifyLocal else NotifyNew | NotifyUpdate
  }

  /**
   * Both convenience registrations ask for new and updated values, never for
   * deletions or flag changes, and the boolean switches on exactly its own bit.
   */
  lemma ListenerFlagBits(b: bool)
    ensures TableListenerFlags(b) & (NotifyNew | NotifyUpdate) == NotifyNew | NotifyUpdate
    ensures SubTableListenerFlags(b) & (NotifyNew | NotifyUpdate) == NotifyNew | NotifyUpdate
    ensures TableListenerFlags(b) & (NotifyDelete | NotifyFlagsChanged | NotifyLocal) == 0
    ensures SubTableListenerFlags(b) & (NotifyDelete | NotifyFlagsChanged | NotifyImmediate) == 0
    ensures (TableListenerFlags(b) & NotifyImmediate != 0) == b
    ensures (SubTableListenerFlags(b) & NotifyLocal != 0) == b
  {
  }

  // ---------------------------------------------------------------------
  // Adapters
  // ---------------------------------------------------------------------

  /** A notification from the core: entry name, value (none for a deleted entry) and flags. */
  datatype EntryEvent = EntryEvent(uid: int, name: string, value: Option<Value>, flags: bv32)

  /** A call of the table listener's ValueChanged, on this table. */
  datatype TableCall = ValueChanged(key: string, value: Option<Value>, flags: bv32)

  /**
   * The adapter AddTableListenerEx(listener, flags) registers: the key
   * relative to the table, forwarded only when it has no further separator.
   * Taking the relative key needs the name to be longer than the path.
   */
  function TableAdapter(path: string, ev: EntryEvent): Option<TableCall>
    requires |ev.name| >= |path| + 1
  {
    var rel := ev.name[|path| + 1..];
    if IndexOf(rel, PathSeparator) != -1 then None
    else Some(ValueChanged(rel, ev.value, ev.flags))
  }

  /**
   * For a name under the table, the table adapter forwards exactly the
   * events of direct children, passing the key whose full name is the
   * event's name, and the value and flags unchanged.
   */
  lemma TableAdapterForwardsDirectChildren(path: string, ev: EntryEvent)
    requires path + [PathSeparator] <= ev.name
    ensures TableAdapter(path, ev).Some? <==>
      exists key :: PathSeparator !in key && ev.name == FullName(path, key)
    ensures TableAdapter(path, ev).Some? ==>
      var call := TableAdapter(path, ev).value;
      && FullName(path, call.key) == ev.name
      && call.value == ev.value && call.flags == ev.flags
  {
    var rel := ev.name[|path| + 1..];
    assert ev.name == FullName(path, rel);
    forall key | PathSeparator !in key && ev.name == FullName(path, key)
      ensures key == rel
    {
    }
  }

  /** The adapter AddTableListenerEx(key, listener, flags) registers: only the exact full name. */
  function KeyAdapter(path: string, key: string, ev: EntryEvent): Option<TableCall> {
    if ev.name != FullName(path, key) then None
    else Some(ValueChanged(key, ev.value, ev.flags))
  }

  /**
   * For a key without a separator, the per-key adapter and the table
   * adapter agree on the events of that key, and the per-key adapter
   * ignores every other event.
   */
  lemma KeyAdapterAgreesWithTableAdapter(path: string, key: string, ev: EntryEvent)
    requires PathSeparator !in key
    requires |ev.name| >= |path| + 1
    ensures KeyAdapter(path, key, ev).Some? <==> ev.name == FullName(path, key)
    ensures ev.name == FullName(path, key) ==> KeyAdapter(path, key, ev) == TableAdapter(path, ev)
  {
    if ev.name == FullName(path, key) {
      assert ev.name[|path| + 1..] == key;
    }
  }

  /**
   * The adapter AddSubTableListener registers, with the set of sub-table
   * names it has already reported: the first segment of a relative key that
   * has a separator is reported, with no value, the first time it is seen.
   */
  function SubTableAdapter(path: string, notified: set<string>, ev: EntryEvent): (r: (Option<TableCall>, set<string>))
    requires |ev.name| >= |path| + 1
    ensures var rel := ev.name[|path| + 1..]; r.0.Some? <==> PathSeparator in rel && FirstSegment(rel) !in notified
    ensures var rel := ev.name[|path| + 1..];
      r.0.Some? ==> PathSeparator in rel && r.0.value == ValueChanged(FirstSegment(rel), None, ev.flags)
    ensures r.0.Some? ==> r.0.value.key !in notified && r.1 == notified + {r.0.value.key}
    ensures r.0.None? ==> r.1 == notified
  {
    var rel := ev.name[|path| + 1..];
    var end := IndexOf(rel, PathSeparator);
    if end == -1 then (None, notified)
    else
      var sub := rel[..end];
      if sub in notified then (None, notified)
      else (Some(ValueChanged(sub, None, ev.flags)), notified + {sub})
  }

  /** Every event of a run names an entry under the table. */
  predicate UnderTable(path: string, events: seq<EntryEvent>) {
    forall i :: 0 <= i < |events| ==> |events[i].name| >= |path| + 1
  }

  /** No two calls report the same key. */
  predicate DistinctKeys(calls: seq<TableCall>) {
    forall i, j :: 0 <= i < j < |calls| ==> calls[i].key != calls[j].key
  }

  /** The event names an entry under the table whose relative key has a separator, and key is its first segment. */
  predicate SegmentOf(path: string, ev: EntryEvent, key: string) {
    && |ev.name| >= |path| + 1
    && PathSeparator in ev.name[|path| + 1..]
    && key == FirstSegment(ev.name[|path| + 1..])
  }

  /** The sub-table adapter fed a sequence of events: the calls it makes and the set it ends with. */
  function SubTableRun(path: string, notified: set<string>, events: seq<EntryEvent>): (r: (seq<TableCall>, set<string>))
    requires UnderTable(path, events)
    ensures DistinctKeys(r.0)
    ensures forall i :: 0 <= i < |r.0| ==> r.0[i].value == None && r.0[i].key !in notified
    ensures forall k :: k in r.1 <==> k in notified || exists i :: 0 <= i < |r.0| && r.0[i].key == k
    ensures |r.0| <= |events|
    decreases |events|
  {
    if |events| == 0 then ([], notified)
    else
      var step := SubTableAdapter(path, notified, events[0]);
      assert UnderTable(path, events[1..]) by {
        forall i | 0 <= i < |events[1..]| ensures |events[1..][i].name| >= |path| + 1 {
          assert events[1..][i] == events[i + 1];
        }
      }
      var rest := SubTableRun(path, step.1, events[1..]);
      if step.0.None? then rest
      else
        var calls := [step.0.value] + rest.0;
        assert forall i :: 0 < i < |calls| ==> calls[i] == rest.0[i - 1];
        PrependedCallKeys(notified, step.0.value, rest.0, rest.1);
        (calls, rest.1)
  }

  /** A call in front of a run: the keys known at the end are the earlier ones and every reported key. */
  lemma PrependedCallKeys(notified: set<string>, call: TableCall, rest: seq<TableCall>, known: set<string>)
    requires forall k :: k in known <==> k in notified + {call.key} || exists i :: 0 <= i < |rest| && rest[i].key == k
    ensures forall k :: k in known <==> k in notified || exists i :: 0 <= i < |[call] + rest| && ([call] + rest)[i].key == k
  {
    var calls := [call] + rest;
    forall k ensures k in known <==> k in notified || exists i :: 0 <= i < |calls| && calls[i].key == k {
      if k == call.key {
        assert calls[0].key == k;
      }
      if exists i :: 0 <= i < |rest| && rest[i].key == k {
        var i :| 0 <= i < |rest| && rest[i].key == k;
        assert calls[i + 1].key == k;
      }
      if exists i :: 0 <= i < |calls| && calls[i].key == k {
        var i :| 0 <= i < |calls| && calls[i].key == k;
        if i > 0 {
          assert rest[i - 1].key == k;
        }
      }
    }
  }

  /**
   * Every sub-table a run of events touches has been reported by its end,
   * in this run or before it; with the contract of SubTableRun this makes
   * each sub-table reported exactly once over the adapter's lifetime.
   */
  lemma {:induction false} SubTableRunReportsAll(path: string, notified: set<string>, events: seq<EntryEvent>, n: nat)
    requires UnderTable(path, events)
    requires n < |events|
    requires PathSeparator in events[n].name[|path| + 1..]
    ensures FirstSegment(events[n].name[|path| + 1..]) in SubTableRun(path, notified, events).1
    decreases |events|
  {
    var step := SubTableAdapter(path, notified, events[0]);
    var later := SubTableRun(path, step.1, events[1..]).1;
    assert SubTableRun(path, notified, events).1 == later;
    assert step.1 <= later;
    if n > 0 {
      assert events[1..][n - 1] == events[n];
      SubTableRunReportsAll(path, step.1, events[1..], n - 1);
    } else {
      assert FirstSegment(events[0].name[|path| + 1..]) in step.1;
    }
  }

  /** The first segments of the relative keys, with a separator, of a run's events: the sub-tables it touches. */
  function EventSegments(path: string, events: seq<EntryEvent>): set<string>
    requires UnderTable(path, events)
    decreases |events|
  {
    if |events| == 0 then {}
    else
      var rel := events[0].name[|path| + 1..];
      assert UnderTable(path, events[1..]) by {
        forall i | 0 <= i < |events[1..]| ensures |events[1..][i].name| >= |path| + 1 {
          assert events[1..][i] == events[i + 1];
        }
      }
      (if PathSeparator in rel then {FirstSegment(rel)} else {}) + EventSegments(path, events[1..])
  }

  /** A name is in EventSegments exactly when it is the first segment of one of the events. */
  lemma {:induction false} EventSegmentsMembers(path: string, events: seq<EntryEvent>, key: string)
    requires UnderTable(path, events)
    ensures key in EventSegments(path, events) <==> exists j :: 0 <= j < |events| && SegmentOf(path, events[j], key)
    decreases |events|
  {
    if |events| > 0 {
      assert UnderTable(path, events[1..]) by {
        forall i | 0 <= i < |events[1..]| ensures |events[1..][i].name| >= |path| + 1 {
          assert events[1..][i] == events[i + 1];
        }
      }
      EventSegmentsMembers(path, events[1..], key);
      if exists j :: 0 <= j < |events[1..]| && SegmentOf(path, events[1..][j], key) {
        var j :| 0 <= j < |events[1..]| && SegmentOf(path, events[1..][j], key);
        assert events[1..][j] == events[j + 1];
      }
      if exists j :: 0 <= j < |events| && SegmentOf(path, events[j], key) {
        var j :| 0 <= j < |events| && SegmentOf(path, events[j], key);
        if j > 0 {
          assert events[1..][j - 1] == events[j];
        }
      }
    }
  }

  /**
   * The converse of SubTableRunReportsAll: the names a run ends up knowing
   * are exactly the earlier ones and the sub-tables its events touch, so
   * every reported key is such a sub-table and an event on a direct child
   * of the table reports nothing.
   */
  lemma {:induction false} SubTableRunReportsOnlySubTables(path: string, notified: set<string>, events: seq<EntryEvent>)
    requires UnderTable(path, events)
    ensures SubTableRun(path, notified, events).1 == notified + EventSegments(path, events)
    ensures var calls := SubTableRun(path, notified, events).0;
      forall i :: 0 <= i < |calls| ==> calls[i].key in EventSegments(path, events)
    decreases |events|
  {
    if |events| > 0 {
      var step := SubTableAdapter(path, notified, events[0]);
      assert UnderTable(path, events[1..]) by {
        forall i | 0 <= i < |events[1..]| ensures |events[1..][i].name| >= |path| + 1 {
          assert events[1..][i] == events[i + 1];
        }
      }
      SubTableRunReportsOnlySubTables(path, step.1, events[1..]);
      var rel := events[0].name[|path| + 1..];
      assert step.1 == notified + (if PathSeparator in rel then {FirstSegment(rel)} else {});
      assert SubTableRun(path, notified, events).1 == SubTableRun(path, step.1, events[1..]).1;
    }
  }

  // ---------------------------------------------------------------------
  // Table listener bookkeeping
  // ---------------------------------------------------------------------

  /** A listener object or delegate, by identity. */
  type ListenerId = nat

  /** Which adapter a core entry listener is. */
  datatype AdapterKind = TableKind | KeyKind(key: string) | SubTableKind

  /** A core entry listener: the prefix it watches, the flags it asked for, and its adapter. */
  datatype Subscription = Subscription(prefix: string, flags: bv32, kind: AdapterKind)

  /**
   * The table's listener map (listener to the ids of its adapters) together
   * with the core's entry listeners and the core's next id. The two maps of
   * the source, one for listener objects and one for delegates, behave the
   * same and are both this type.
   */
  datatype Listeners = Listeners(adapters: map<ListenerId, seq<nat>>, core: map<nat, Subscription>, nextId: nat)

  /**
   * The ids a listener holds are live core listeners issued earlier, and no
   * id is held twice.
   */
  ghost predicate ListenersValid(r: Listeners) {
    && (forall id :: id in r.core ==> id < r.nextId)
    && (forall l, i :: l in r.adapters && 0 <= i < |r.adapters[l]| ==> r.adapters[l][i] in r.core)
    && (forall l, i, j :: l in r.adapters && 0 <= i < j < |r.adapters[l]| ==> r.adapters[l][i] != r.adapters[l][j])
    && (forall l, m, i, j :: l in r.adapters && m in r.adapters && l != m && 0 <= i < |r.adapters[l]| && 0 <= j < |r.adapters[m]|
          ==> r.adapters[l][i] != r.adapters[m][j])
  }

  function NoListeners(): (r: Listeners)
    ensures ListenersValid(r)
  {
    Listeners(map[], map[], 0)
  }

  /** The ids recorded for a listener; none for one never added. */
  function AdapterIds(r: Listeners, listener: ListenerId): seq<nat> {
    if listener in r.adapters then r.adapters[listener] else []
  }

  /** Register an adapter with the core and record its id for the listener. */
  function AddAdapter(r: Listeners, listener: ListenerId, sub: Subscription): (r': Listeners)
    requires ListenersValid(r)
    ensures ListenersValid(r')
    ensures AdapterIds(r', listener) == AdapterIds(r, listener) + [r.nextId]
    ensures r.nextId !in r.core && r'.core == r.core[r.nextId := sub]
    ensures forall l :: l != listener ==> AdapterIds(r', l) == AdapterIds(r, l)
  {
    var ids := AdapterIds(r, listener);
    Listeners(r.adapters[listener := ids + [r.nextId]], r.core[r.nextId := sub], r.nextId + 1)
  }

  /** AddTableListenerEx(listener, flags): a table adapter on `path/`. */
  function AddTableListenerEx(r: Listeners, path: string, listener: ListenerId, flags: bv32): (r': Listeners)
    requires ListenersValid(r)
    ensures ListenersValid(r')
    ensures r.nextId in r'.core && r'.core[r.nextId] == Subscription(path + [PathSeparator], flags, TableKind)
    ensures AdapterIds(r', listener) == AdapterIds(r, listener) + [r.nextId]
  {
    AddAdapter(r, listener, Subscription(path + [PathSeparator], flags, TableKind))
  }

  /** AddTableListenerEx(key, listener, flags): a per-key adapter on the key's full name. */
  function AddKeyListenerEx(r: Listeners, path: string, key: string, listener: ListenerId, flags: bv32): (r': Listeners)
    requires ListenersValid(r)
    ensures ListenersValid(r')
    ensures r.nextId in r'.core && r'.core[r.nextId] == Subscription(FullName(path, key), flags, KeyKind(key))
    ensures AdapterIds(r', listener) == AdapterIds(r, listener) + [r.nextId]
  {
    AddAdapter(r, listener, Subscription(FullName(path, key), flags, KeyKind(key)))
  }

  /** AddTableListener(listener, immediateNotify). */
  function AddTableListener(r: Listeners, path: string, listener: ListenerId, immediateNotify: bool): (r': Listeners)
    requires ListenersValid(r)
    ensures ListenersValid(r')
    ensures r.nextId in r'.core && r'.core[r.nextId] == Subscription(path + [PathSeparator], TableListenerFlags(immediateNotify), TableKind)
    ensures AdapterIds(r', listener) == AdapterIds(r, listener) + [r.nextId]
  {
    AddTableListenerEx(r, path, listener, TableListenerFlags(immediateNotify))
  }

  /** AddTableListener(key, listener, immediateNotify). */
  function AddKeyListener(r: Listeners, path: string, key: string, listener: ListenerId, immediateNotify: bool): (r': Listeners)
    requires ListenersValid(r)
    ensures ListenersValid(r')
    ensures r.nextId in r'.core && r'.core[r.nextId] == Subscription(FullName(path, key), TableListenerFlags(immediateNotify), KeyKind(key))
    ensures AdapterIds(r', listener) == AdapterIds(r, listener) + [r.nextId]
  {
    AddKeyListenerEx(r, path, key, listener, TableListenerFlags(immediateNotify))
  }

  /** AddSubTableListener(listener, localNotify): a sub-table adapter on `path/`. */
  function AddSubTableListener(r: Listeners, path: string, listener: ListenerId, localNotify: bool): (r': Listeners)
    requires ListenersValid(r)
    ensures ListenersValid(r')
    ensures r.nextId in r'.core && r'.core[r.nextId] == Subscription(path + [PathSeparator], SubTableListenerFlags(localNotify), SubTableKind)
    ensures AdapterIds(r', listener) == AdapterIds(r, listener) + [r.nextId]
  {
    AddAdapter(r, listener, Subscription(path + [PathSeparator], SubTableListenerFlags(localNotify), SubTableKind))
  }

  /** The core's entry listeners with the given ids removed. */
  function RemoveIds(core: map<nat, Subscription>, ids: seq<nat>): (r: map<nat, Subscription>)
    ensures forall id :: id in r <==> id in core && id !in ids
    ensures forall id :: id in r ==> r[id] == core[id]
    decreases |ids|
  {
    if |ids| == 0 then core
    else RemoveIds(core - {ids[0]}, ids[1..])
  }

  /**
   * RemoveTableListener: every adapter id recorded for the listener is
   * removed from the core and its list is emptied; an unknown listener
   * changes nothing.
   */
  function RemoveTableListener(r: Listeners, listener: ListenerId): (r': Listeners)
    requires ListenersValid(r)
    ensures ListenersValid(r')
    ensures AdapterIds(r', listener) == []
    ensures forall id :: id in r'.core <==> id in r.core && id !in AdapterIds(r, listener)
    ensures forall l :: l != listener ==> AdapterIds(r', l) == AdapterIds(r, l)
    ensures forall id :: id in r'.core ==> r'.core[id] == r.core[id]
    ensures r'.nextId == r.nextId
    ensures listener !in r.adapters ==> r' == r
  {
    if listener !in r.adapters then r
    else
      var ids := r.adapters[listener];
      var r' := Listeners(r.adapters[listener := []], RemoveIds(r.core, ids), r.nextId);
      assert forall l, i :: l in r.adapters && l != listener && 0 <= i < |r.adapters[l]| ==> r.adapters[l][i] !in ids;
      r'
  }

  /**
   * Adding an adapter and then removing its listener leaves the core's
   * entry listeners exactly as they were with that listener's earlier
   * adapters removed too, and the listener holding no ids.
   */
  lemma AddThenRemove(r: Listeners, path: string, listener: ListenerId, flags: bv32)
    requires ListenersValid(r)
    ensures var r' := RemoveTableListener(AddTableListenerEx(r, path, listener, flags), listener);
      && AdapterIds(r', listener) == []
      && r'.core == RemoveTableListener(r, listener).core
  {
    var added := AddTableListenerEx(r, path, listener, flags);
    var r' := RemoveTableListener(added, listener);
    var direct := RemoveTableListener(r, listener);
    assert AdapterIds(added, listener) == AdapterIds(r, listener) + [r.nextId];
    assert forall id :: id in r'.core <==> id in direct.core;
    assert forall id :: id in r'.core ==> r'.core[id] == added.core[id] == r.core[id] == direct.core[id];
  }

  // ---------------------------------------------------------------------
  // Connection listeners
  // ---------------------------------------------------------------------

  /**
   * The table's connection-listener map (listener to its core id), with the
   * core's connection listeners (id to whether it asked for immediate
   * notification) and the core's next id.
   */
  datatype ConnListeners = ConnListeners(ids: map<ListenerId, nat>, core: map<nat, bool>, nextId: nat)

  /**
   * The core ids in use, in the core or in the table's map, were issued
   * earlier, and no two listeners hold the same id. (A map entry's id need
   * not be live: the removal as written keeps the entry.)
   */
  ghost predicate ConnListenersValid(r: ConnListeners) {
    && (forall id :: id in r.core ==> id < r.nextId)
    && (forall l :: l in r.ids ==> r.ids[l] < r.nextId)
    && (forall l, m :: l in r.ids && m in r.ids && l != m ==> r.ids[l] != r.ids[m])
  }

  function NoConnListeners(): (r: ConnListeners)
    ensures ConnListenersValid(r) && r.ids == map[] && r.core == map[]
  {
    ConnListeners(map[], map[], 0)
  }

  /**
   * AddConnectionListener: a listener already in the map is refused and
   * nothing changes; otherwise it is registered under a fresh core id that
   * no live core listener and no other listener holds.
   */
  function AddConnectionListener(r: ConnListeners, listener: ListenerId, immediateNotify: bool): (res: Result<ConnListeners, string>)
    requires ConnListenersValid(r)
    ensures res.Failure? <==> listener in r.ids
    ensures res.Success? ==>
      && r.nextId !in r.core
      && (forall l :: l in r.ids ==> r.ids[l] != r.nextId)
      && res.value.ids == r.ids[listener := r.nextId]
      && res.value.core == r.core[r.nextId := immediateNotify]
      && res.value.nextId > r.nextId
      && ConnListenersValid(res.value)
  {
    if listener in r.ids then Failure("Cannot add the same listener twice")
    else Success(ConnListeners(r.ids[listener := r.nextId], r.core[r.nextId := immediateNotify], r.nextId + 1))
  }

  /**
   * RemoveConnectionListener as written: the core listener is removed but
   * the map keeps the listener.
   */
  function RemoveConnectionListenerAsWritten(r: ConnListeners, listener: ListenerId): (r': ConnListeners)
    requires ConnListenersValid(r)
    ensures ConnListenersValid(r')
    ensures r'.ids == r.ids
    ensures listener in r.ids ==> r'.core == r.core - {r.ids[listener]}
  {
    if listener in r.ids then r.(core := r.core - {r.ids[listener]}) else r
  }

  /** A listener that was added and removed can never be added again under the code as written. */
  lemma RemovedConnectionListenerCannotReturn(r: ConnListeners, listener: ListenerId, immediateNotify: bool)
    requires ConnListenersValid(r)
    requires listener !in r.ids
    ensures var added := AddConnectionListener(r, listener, immediateNotify);
      && added.Success?
      && AddConnectionListener(RemoveConnectionListenerAsWritten(added.value, listener), listener, immediateNotify).Failure?
  {
  }

  /** RemoveConnectionListener, corrected: the core listener and the map entry both go. */
  function RemoveConnectionListener(r: ConnListeners, listener: ListenerId): (r': ConnListeners)
    requires ConnListenersValid(r)
    ensures ConnListenersValid(r')
    ensures listener !in r'.ids
    ensures r'.ids == r.ids - {listener}
    ensures listener in r.ids ==> r'.core == r.core - {r.ids[listener]}
    ensures listener !in r.ids ==> r' == r
  {
    if listener in r.ids then ConnListeners(r.ids - {listener}, r.core - {r.ids[listener]}, r.nextId) else r
  }

  /**
   * With the correction, removing a listener makes it addable again, and
   * adding then removing gives back the listener map it started from.
   */
  lemma RemovedConnectionListenerCanReturn(r: ConnListeners, listener: ListenerId, immediateNotify: bool)
    requires ConnListenersValid(r)
    requires listener !in r.ids
    ensures var added := AddConnectionListener(r, listener, immediateNotify);
      && added.Success?
      && RemoveConnectionListener(added.value, listener).ids == r.ids
      && AddConnectionListener(RemoveConnectionListener(added.value, listener), listener, immediateNotify).Success?
  {
    var added := AddConnectionListener(r, listener, immediateNotify).value;
    assert RemoveConnectionListener(added, listener).ids == r.ids;
  }

  /** A call on a connection listener object. */
  datatype ConnCall = Connected(info: ConnectionInfo) | Disconnected(info: ConnectionInfo)

  /** The adapter for a listener object: Connected on connection, Disconnected otherwise. */
  function ConnectionObjectAdapter(connected: bool, info: ConnectionInfo): ConnCall {
    if connected then Connected(info) else Disconnected(info)
  }

  /**
   * The adapter for a delegate: the connection and the flag, passed through.
   * It tells the delegate what the object adapter tells a listener object.
   */
  function ConnectionDelegateAdapter(connected: bool, info: ConnectionInfo): (r: (ConnectionInfo, bool))
    ensures r.1 == ConnectionObjectAdapter(connected, info).Connected?
    ensures r.0 == ConnectionObjectAdapter(connected, info).info
  {
    (info, connected)
  }

  // ---------------------------------------------------------------------
  // Remote status
  // ---------------------------------------------------------------------

  /** IsConnected: the core lists at least one connection. */
  function IsConnected(d: Dispatcher.Dispatcher): bool {
    d.active && |Dispatcher.ActiveInfos(d.connections)| > 0
  }

  /** The table is connected exactly when the dispatcher runs and one of its connections is active. */
  lemma IsConnectedExactly(d: Dispatcher.Dispatcher)
    ensures IsConnected(d) <==> d.active && exists c :: c in d.connections && c.state == Active
  {
    var infos := Dispatcher.ActiveInfos(d.connections);
    if |infos| > 0 {
      Dispatcher.ActiveInfosMembers(d.connections, infos[0]);
    }
    if exists c :: c in d.connections && c.state == Active {
      var c :| c in d.connections && c.state == Active;
      Dispatcher.ActiveInfosMembers(d.connections, Info(c));
    }
  }
}

=== FILE: values.dfy ===
/**
 * The typed values NetworkTables stores and transmits. Strings are held as
 * their UTF-8 bytes; a double is held as its 64-bit IEEE-754 bit pattern, so
 * the model never reasons about floating point.
 */
module Values {

  /** Protocol revisions 2.0 and 3.0. */
  const Rev2: nat := 0x0200
  const Rev3: nat := 0x0300

  newtype byte = x: int | 0 <= x < 0x100

  type Bytes = seq<byte>

  const Uint64Limit: nat := 0x1_0000_0000_0000_0000

  /** The IEEE-754 bit pattern of a double. */
  type DoubleBits = x: nat | x < Uint64Limit

  /** The value types of the protocol (NtType in the source). */
  datatype NtType =
    | Unassigned
    | Boolean
    | Double
    | String
    | Raw
    | BooleanArray
    | DoubleArray
    | StringArray
    | Rpc

  /** A value; `EmptyValue` is the value of type Unassigned made by Value.MakeEmpty. */
  datatype Value =
    | EmptyValue
    | BooleanValue(b: bool)
    | DoubleValue(bits: DoubleBits)
    | StringValue(s: Bytes)
    | RawValue(raw: Bytes)
    | RpcValue(rpc: Bytes)
    | BooleanArrayValue(bools: seq<bool>)
    | DoubleArrayValue(doubles: seq<DoubleBits>)
    | StringArrayValue(strings: seq<Bytes>)
  {
    /** The type tag a value carries. */
    function Type(): NtType {
      match this
      case EmptyValue => Unassigned
      case BooleanValue(_) => Boolean
      case DoubleValue(_) => Double
      case StringValue(_) => String
      case RawValue(_) => Raw
      case RpcValue(_) => Rpc
      case BooleanArrayValue(_) => BooleanArray
      case DoubleArrayValue(_) => DoubleArray
      case StringArrayValue(_) => StringArray
    }
  }
}

=== FILE: wire_decoder.dfy ===
/**
 * A reference decoder for the encodings of WireEncoder. It is the partner
 * the encoder is checked against: every write reads back as what the
 * revision can carry (the whole value, or its truncation).
 */
module WireDecoder {
  import opened Wrappers
  import opened Values
  import opened WireEncoder

  lemma {:induction false} BigEndianValueBound(bs: Bytes)
    ensures BigEndianValue(bs) < Pow256(|bs|)
    decreases |bs|
  {
    if |bs| > 0 {
      var init := bs[..|bs| - 1];
      BigEndianValueBound(init);
      assert BigEndianValue(bs) == BigEndianValue(init) * 0x100 + bs[|bs| - 1] as nat;
      assert BigEndianValue(init) + 1 <= Pow256(|init|);
      assert (BigEndianValue(init) + 1) * 0x100 <= Pow256(|init|) * 0x100;
    }
  }

  /** Reads an unsigned LEB128 number: the number and how many bytes it took. */
  function ReadUleb128(bs: Bytes): (r: Option<(nat, nat)>)
    ensures r.Some? ==> 1 <= r.value.1 <= |bs|
    decreases |bs|
  {
    if |bs| == 0 then None
    else if bs[0] < 0x80 then Some((bs[0] as nat, 1))
    else
      match ReadUleb128(bs[1..])
      case None => None
      case Some((v, n)) => Some(((bs[0] - 0x80) as nat + 0x80 * v, n + 1))
  }

  /** WriteUleb128 reads back as the number written, whatever follows it. */
  lemma {:induction false} Uleb128RoundTrip(x: nat, rest: Bytes)
    ensures ReadUleb128(Uleb128(x) + rest) == Some((x, |Uleb128(x)|))
    decreases x
  {
    var bs := Uleb128(x) + rest;
    if x < 0x80 {
      assert bs[0] == x as byte;
    } else {
      var low := (x % 0x80 + 0x80) as byte;
      assert bs[0] == low && low >= 0x80;
      assert (low - 0x80) as nat == x % 0x80;
      Uleb128RoundTrip(x / 0x80, rest);
      assert bs[1..] == Uleb128(x / 0x80) + rest;
      assert ReadUleb128(bs[1..]) == Some((x / 0x80, |Uleb128(x / 0x80)|));
      assert x % 0x80 + 0x80 * (x / 0x80) == x;
    }
  }

  /** Reads a length-prefixed string: a 16-bit length below revision 3.0, LEB128 from 3.0 on. */
  function ReadString(rev: nat, bs: Bytes): (r: Option<(Bytes, nat)>)
    ensures r.Some? ==> r.value.1 <= |bs|
  {
    if rev < Rev3 then
      if |bs| < 2 then None
      else
        var n := BigEndianValue(bs[..2]);
        if |bs| < 2 + n then None else Some((bs[2..2 + n], 2 + n))
    else
      match ReadUleb128(bs)
      case None => None
      case Some((n, k)) => if |bs| < k + n then None else Some((bs[k..k + n], k + n))
  }

  lemma StringRoundTripRev2(rev: nat, s: Bytes, rest: Bytes)
    requires rev < Rev3
    ensures ReadString(rev, StringBytes(rev, s) + rest)
         == Some((s[..StringPayloadLength(rev, |s|)], |StringBytes(rev, s)|))
  {
    var n := StringPayloadLength(rev, |s|);
    var prefix := Be16(n);
    assert StringBytes(rev, s) == prefix + s[..n];
    var bs := prefix + s[..n] + rest;
    assert bs[..2] == prefix;
    assert BigEndianValue(prefix) == n;
    assert bs[2..2 + n] == s[..n];
  }

  /** From 3.0 on, a LEB128 length that reads back, followed by that many bytes, reads back as those bytes. */
  lemma ReadStringRev3(rev: nat, prefix: Bytes, s: Bytes, rest: Bytes)
    requires rev >= Rev3
    requires ReadUleb128(prefix + (s + rest)) == Some((|s|, |prefix|))
    ensures ReadString(rev, prefix + (s + rest)) == Some((s, |prefix| + |s|))
  {
    var bs := prefix + (s + rest);
    assert bs[|prefix|..|prefix| + |s|] == s;
  }

  lemma StringRoundTripRev3(rev: nat, s: Bytes, rest: Bytes)
    requires rev >= Rev3
    ensures ReadString(rev, StringBytes(rev, s) + rest)
         == Some((s[..StringPayloadLength(rev, |s|)], |StringBytes(rev, s)|))
  {
    var prefix := Uleb128(|s|);
    assert StringBytes(rev, s) == prefix + s;
    Uleb128RoundTrip(|s|, s + rest);
    ReadStringRev3(rev, prefix, s, rest);
    AppendAssociates(prefix, s, rest);
    assert s[..|s|] == s;
  }

  /** WriteString reads back as the bytes the revision keeps: all of them, or the first 65535 below 3.0. */
  lemma StringRoundTrip(rev: nat, s: Bytes, rest: Bytes)
    ensures ReadString(rev, StringBytes(rev, s) + rest)
         == Some((s[..StringPayloadLength(rev, |s|)], |StringBytes(rev, s)|))
  {
    if rev < Rev3 {
      StringRoundTripRev2(rev, s, rest);
    } else {
      StringRoundTripRev3(rev, s, rest);
    }
  }

  /** The value type a tag byte stands for at a revision. */
  function TagType(rev: nat, tag: byte): Option<NtType> {
    if tag == 0x00 then Some(Boolean)
    else if tag == 0x01 then Some(Double)
    else if tag == 0x02 then Some(String)
    else if tag == 0x03 && rev >= Rev3 then Some(Raw)
    else if tag == 0x10 then Some(BooleanArray)
    else if tag == 0x11 then Some(DoubleArray)
    else if tag == 0x12 then Some(StringArray)
    else if tag == 0x20 && rev >= Rev3 then Some(Rpc)
    else None
  }

  /** Every tag WriteType writes reads back as its type, so distinct types get distinct tags. */
  lemma TypeTagRoundTrip(rev: nat, t: NtType)
    ensures TypeTag(rev, t).Success? ==> TagType(rev, TypeTag(rev, t).value) == Some(t)
  {
  }

  function ReadDouble(bs: Bytes): (r: Option<DoubleBits>)
    ensures |bs| >= 8 <==> r.Some?
  {
    if |bs| < 8 then None
    else
      BigEndianValueBound(bs[..8]);
      Some(BigEndianValue(bs[..8]))
  }

  function ReadBooleans(count: nat, bs: Bytes): (r: Option<seq<bool>>)
    ensures r.Some? ==> |r.value| == count
  {
    if |bs| < count then None
    else Some(seq(count, i requires 0 <= i < count => bs[i] != 0))
  }

  function ReadDoubles(count: nat, bs: Bytes): (r: Option<(seq<DoubleBits>, nat)>)
    decreases count
  {
    if count == 0 then Some(([], 0))
    else
      match ReadDouble(bs)
      case None => None
      case Some(d) =>
        match ReadDoubles(count - 1, bs[8..])
        case None => None
        case Some((ds, n)) => Some(([d] + ds, 8 + n))
  }

  function ReadStrings(rev: nat, count: nat, bs: Bytes): (r: Option<(seq<Bytes>, nat)>)
    decreases count
  {
    if count == 0 then Some(([], 0))
    else
      match ReadString(rev, bs)
      case None => None
      case Some((s, k)) =>
        match ReadStrings(rev, count - 1, bs[k..])
        case None => None
        case Some((ss, n)) => Some(([s] + ss, k + n))
  }

  /** Reads the payload of a value of a known type: the value and how many bytes it took. */
  function ReadValue(rev: nat, t: NtType, bs: Bytes): Option<(Value, nat)> {
    match t
    case Unassigned => None
    case Boolean => if |bs| < 1 then None else Some((BooleanValue(bs[0] != 0), 1))
    case Double =>
      (match ReadDouble(bs)
       case None => None
       case Some(d) => Some((DoubleValue(d), 8)))
    case String =>
      (match ReadString(rev, bs)
       case None => None
       case Some((s, k)) => Some((StringValue(s), k)))
    case Raw =>
      if rev < Rev3 then None
      else
        (match ReadString(rev, bs)
         case None => None
         case Some((s, k)) => Some((RawValue(s), k)))
    case Rpc =>
      if rev < Rev3 then None
      else
        (match ReadString(rev, bs)
         case None => None
         case Some((s, k)) => Some((RpcValue(s), k)))
    case BooleanArray => ReadBooleanArray(bs)
    case DoubleArray => ReadDoubleArray(bs)
    case StringArray => ReadStringArray(rev, bs)
  }

  function ReadBooleanArray(bs: Bytes): Option<(Value, nat)> {
    if |bs| < 1 then None
    else
      match ReadBooleans(bs[0] as nat, bs[1..])
      case None => None
      case Some(b) => Some((BooleanArrayValue(b), 1 + bs[0] as nat))
  }

  function ReadDoubleArray(bs: Bytes): Option<(Value, nat)> {
    if |bs| < 1 then None
    else
      match ReadDoubles(bs[0] as nat, bs[1..])
      case None => None
      case Some((ds, n)) => Some((DoubleArrayValue(ds), 1 + n))
  }

  function ReadStringArray(rev: nat, bs: Bytes): Option<(Value, nat)> {
    if |bs| < 1 then None
    else
      match ReadStrings(rev, bs[0] as nat, bs[1..])
      case None => None
      case Some((ss, n)) => Some((StringArrayValue(ss), 1 + n))
  }

  /** Each string cut to what the revision carries. */
  function CutStrings(rev: nat, ss: seq<Bytes>): (r: seq<Bytes>)
    ensures |r| == |ss|
  {
    if |ss| == 0 then [] else [ss[0][..StringPayloadLength(rev, |ss[0]|)]] + CutStrings(rev, ss[1..])
  }

  /** What survives the wire at a revision: arrays keep 255 elements, strings below 3.0 keep 65535 bytes. */
  function Truncated(rev: nat, v: Value): Value {
    match v
    case StringValue(s) => StringValue(s[..StringPayloadLength(rev, |s|)])
    case RawValue(raw) => RawValue(raw[..StringPayloadLength(rev, |raw|)])
    case RpcValue(rpc) => RpcValue(rpc[..StringPayloadLength(rev, |rpc|)])
    case BooleanArrayValue(bs) => BooleanArrayValue(bs[..ArrayCount(|bs|)])
    case DoubleArrayValue(ds) => DoubleArrayValue(ds[..ArrayCount(|ds|)])
    case StringArrayValue(ss) =>
      StringArrayValue(CutStrings(rev, ss[..ArrayCount(|ss|)]))
    case _ => v
  }

  /**
   * One step of ReadDoubles: eight bytes holding a pattern, followed by a run
   * that reads back, read back as the longer run.
   */
  lemma ReadDoublesCons(count: nat, first: Bytes, others: Bytes, rest: Bytes,
                        d: DoubleBits, ds: seq<DoubleBits>, n: nat)
    requires count > 0 && |first| == 8 && BigEndianValue(first) == d
    requires ReadDoubles(count - 1, others + rest) == Some((ds, n))
    ensures ReadDoubles(count, (first + others) + rest) == Some(([d] + ds, 8 + n))
  {
    var bs := first + (others + rest);
    assert (first + others) + rest == bs;
    assert bs[..8] == first;
    assert bs[8..] == others + rest;
  }

  lemma {:induction false} DoublesRoundTrip(ds: seq<DoubleBits>, rest: Bytes)
    ensures ReadDoubles(|ds|, DoubleElements(ds) + rest) == Some((ds, 8 * |ds|))
    decreases |ds|
  {
    if |ds| > 0 {
      DoublesRoundTrip(ds[1..], rest);
      ReadDoublesCons(|ds|, BeDouble(ds[0]), DoubleElements(ds[1..]), rest, ds[0], ds[1..], 8 * |ds[1..]|);
      assert [ds[0]] + ds[1..] == ds;
    }
  }

  /**
   * One step of ReadStrings: a string that reads back, followed by a run
   * that reads back, reads back as the longer run.
   */
  lemma ReadStringsCons(rev: nat, count: nat, bs: Bytes, first: Bytes, others: Bytes, rest: Bytes,
                        head: Bytes, cut: seq<Bytes>)
    requires count > 0 && bs == first + (others + rest)
    requires ReadString(rev, first + (others + rest)) == Some((head, |first|))
    requires ReadStrings(rev, count - 1, others + rest) == Some((cut, |others|))
    ensures ReadStrings(rev, count, bs) == Some(([head] + cut, |first| + |others|))
  {
    assert bs[|first|..] == others + rest;
    ReadStringsStep(rev, count, bs, head, |first|, cut, |others|);
  }

  lemma ReadStringsStep(rev: nat, count: nat, bs: Bytes, s: Bytes, k: nat, ss: seq<Bytes>, n: nat)
    requires count > 0
    requires ReadString(rev, bs) == Some((s, k))
    requires ReadStrings(rev, count - 1, bs[k..]) == Some((ss, n))
    ensures ReadStrings(rev, count, bs) == Some(([s] + ss, k + n))
  {
  }

  /** The elements of a string array are the first string's bytes, then the others'. */
  lemma StringElementsSplit(rev: nat, ss: seq<Bytes>)
    requires |ss| > 0
    ensures StringElements(rev, ss) == StringBytes(rev, ss[0]) + StringElements(rev, ss[1..])
  {
  }

  lemma CutStringsCons(rev: nat, ss: seq<Bytes>)
    requires |ss| > 0
    ensures CutStrings(rev, ss) == [ss[0][..StringPayloadLength(rev, |ss[0]|)]] + CutStrings(rev, ss[1..])
  {
  }

  lemma {:induction false} StringsRoundTrip(rev: nat, ss: seq<Bytes>, rest: Bytes)
    ensures ReadStrings(rev, |ss|, StringElements(rev, ss) + rest)
         == Some((CutStrings(rev, ss), |StringElements(rev, ss)|))
    decreases |ss|
  {
    if |ss| > 0 {
      StringsRoundTrip(rev, ss[1..], rest);
      StringsRoundTripStep(rev, ss, rest);
    }
  }

  /** The induction step of StringsRoundTrip: one more string in front of a run that reads back. */
  lemma StringsRoundTripStep(rev: nat, ss: seq<Bytes>, rest: Bytes)
    requires |ss| > 0
    requires ReadStrings(rev, |ss| - 1, StringElements(rev, ss[1..]) + rest)
          == Some((CutStrings(rev, ss[1..]), |StringElements(rev, ss[1..])|))
    ensures ReadStrings(rev, |ss|, StringElements(rev, ss) + rest)
         == Some((CutStrings(rev, ss), |StringElements(rev, ss)|))
  {
    var others := StringElements(rev, ss[1..]);
    StringElementsSplit(rev, ss);
    CutStringsCons(rev, ss);
    StringRoundTrip(rev, ss[0], others + rest);
    ReadStringsJoin(rev, |ss|, StringElements(rev, ss) + rest, StringElements(rev, ss), StringBytes(rev, ss[0]),
                    others, rest, ss[0][..StringPayloadLength(rev, |ss[0]|)], CutStrings(rev, ss[1..]),
                    CutStrings(rev, ss));
  }

  /** ReadStringsCons with every piece named: the run's bytes, its elements and its cut strings. */
  lemma ReadStringsJoin(rev: nat, count: nat, bs: Bytes, elements: Bytes, first: Bytes, others: Bytes,
                        rest: Bytes, head: Bytes, cut: seq<Bytes>, cutAll: seq<Bytes>)
    requires count > 0 && bs == elements + rest && elements == first + others
    requires ReadString(rev, first + (others + rest)) == Some((head, |first|))
    requires ReadStrings(rev, count - 1, others + rest) == Some((cut, |others|))
    requires cutAll == [head] + cut
    ensures ReadStrings(rev, count, bs) == Some((cutAll, |elements|))
  {
    AppendAssociates(first, others, rest);
    ReadStringsCons(rev, count, bs, first, others, rest, head, cut);
  }

  lemma AppendAssociates(a: Bytes, b: Bytes, c: Bytes)
    ensures (a + b) + c == a + (b + c)
  {
  }

  lemma StringLikeRoundTrip(rev: nat, v: Value, rest: Bytes)
    requires v.StringValue? || v.RawValue? || v.RpcValue?
    requires ValueBytes(rev, Some(v)).Success?
    ensures ReadValue(rev, v.Type(), ValueBytes(rev, Some(v)).value + rest)
         == Some((Truncated(rev, v), |ValueBytes(rev, Some(v)).value|))
  {
    match v
    case StringValue(s) => TaggedStringRoundTrip(rev, String, s, rest);
    case RawValue(raw) => TaggedStringRoundTrip(rev, Raw, raw, rest);
    case RpcValue(rpc) => TaggedStringRoundTrip(rev, Rpc, rpc, rest);
  }

  /** Each string-like type reads its payload as a string; Raw and Rpc only from 3.0 on. */
  lemma TaggedStringRoundTrip(rev: nat, t: NtType, s: Bytes, rest: Bytes)
    requires t == String || (rev >= Rev3 && (t == Raw || t == Rpc))
    ensures var cut := s[..StringPayloadLength(rev, |s|)];
      ReadValue(rev, t, StringBytes(rev, s) + rest)
      == Some((if t == String then StringValue(cut) else if t == Raw then RawValue(cut) else RpcValue(cut),
               |StringBytes(rev, s)|))
  {
    StringRoundTrip(rev, s, rest);
  }

  lemma BooleanArrayRoundTrip(rev: nat, b: seq<bool>, rest: Bytes)
    ensures ReadValue(rev, BooleanArray, ValueBytes(rev, Some(BooleanArrayValue(b))).value + rest)
         == Some((Truncated(rev, BooleanArrayValue(b)), |ValueBytes(rev, Some(BooleanArrayValue(b))).value|))
  {
    var n := ArrayCount(|b|);
    var out := ValueBytes(rev, Some(BooleanArrayValue(b))).value;
    assert out == [n as byte] + BooleanElements(b[..n]);
    var bs := out + rest;
    assert bs[0] as nat == n;
    assert bs[1..] == BooleanElements(b[..n]) + rest;
    forall i | 0 <= i < n
      ensures (bs[1..][i] != 0) == b[..n][i]
    {
      assert bs[1..][i] == BooleanByte(b[..n][i]);
    }
    assert seq(n, i requires 0 <= i < n => bs[1..][i] != 0) == b[..n];
  }

  /** A count byte followed by a run of doubles that reads back reads back as the array. */
  lemma ReadDoubleArrayOf(n: nat, elements: Bytes, rest: Bytes, ds: seq<DoubleBits>)
    requires n < 0x100
    requires ReadDoubles(n, elements + rest) == Some((ds, |elements|))
    ensures ReadDoubleArray(([n as byte] + elements) + rest) == Some((DoubleArrayValue(ds), 1 + |elements|))
  {
    var bs := ([n as byte] + elements) + rest;
    assert bs[0] as nat == n;
    assert bs[1..] == elements + rest;
  }

  lemma DoubleArrayRoundTrip(rev: nat, ds: seq<DoubleBits>, rest: Bytes)
    ensures ReadValue(rev, DoubleArray, ValueBytes(rev, Some(DoubleArrayValue(ds))).value + rest)
         == Some((Truncated(rev, DoubleArrayValue(ds)), |ValueBytes(rev, Some(DoubleArrayValue(ds))).value|))
  {
    var n := ArrayCount(|ds|);
    var elements := DoubleElements(ds[..n]);
    var out := ValueBytes(rev, Some(DoubleArrayValue(ds))).value;
    assert out == [n as byte] + elements by {
      EncodesDoubleArray(rev, ds);
    }
    assert ReadDoubleArray(out + rest) == Some((DoubleArrayValue(ds[..n]), 1 + |elements|)) by {
      DoublesRoundTrip(ds[..n], rest);
      ReadDoubleArrayOf(n, elements, rest, ds[..n]);
    }
    ReadsDoubleArray(rev, out + rest);
    TruncatedDoubleArray(rev, ds);
  }

  lemma EncodesDoubleArray(rev: nat, ds: seq<DoubleBits>)
    ensures ValueBytes(rev, Some(DoubleArrayValue(ds)))
         == Success([ArrayCount(|ds|) as byte] + DoubleElements(ds[..ArrayCount(|ds|)]))
  {
  }

  lemma ReadsDoubleArray(rev: nat, bs: Bytes)
    ensures ReadValue(rev, DoubleArray, bs) == ReadDoubleArray(bs)
  {
  }

  lemma TruncatedDoubleArray(rev: nat, ds: seq<DoubleBits>)
    ensures Truncated(rev, DoubleArrayValue(ds)) == DoubleArrayValue(ds[..ArrayCount(|ds|)])
  {
  }

  lemma ReadsStringArray(rev: nat, bs: Bytes)
    ensures ReadValue(rev, StringArray, bs) == ReadStringArray(rev, bs)
  {
  }

  lemma TruncatedStringArray(rev: nat, ss: seq<Bytes>)
    ensures Truncated(rev, StringArrayValue(ss)) == StringArrayValue(CutStrings(rev, ss[..ArrayCount(|ss|)]))
  {
  }

  lemma EncodesStringArray(rev: nat, ss: seq<Bytes>)
    ensures ValueBytes(rev, Some(StringArrayValue(ss)))
         == Success([ArrayCount(|ss|) as byte] + StringElements(rev, ss[..ArrayCount(|ss|)]))
  {
  }

  lemma ReadStringArrayCons(rev: nat, c: byte, tail: Bytes)
    ensures ReadStringArray(rev, [c] + tail)
         == match ReadStrings(rev, c as nat, tail)
            case None => None
            case Some((ss, n)) => Some((StringArrayValue(ss), 1 + n))
  {
    assert ([c] + tail)[1..] == tail;
  }

  lemma ReadsStringElements(rev: nat, ss: seq<Bytes>, rest: Bytes)
    ensures ReadStringArray(rev, [ArrayCount(|ss|) as byte] + StringElements(rev, ss[..ArrayCount(|ss|)]) + rest)
         == Some((StringArrayValue(CutStrings(rev, ss[..ArrayCount(|ss|)])),
                  1 + |StringElements(rev, ss[..ArrayCount(|ss|)])|))
  {
    var n := ArrayCount(|ss|);
    var elements := StringElements(rev, ss[..n]);
    var cut := CutStrings(rev, ss[..n]);
    var tail := elements + rest;
    assert ReadStrings(rev, n, tail) == Some((cut, |elements|)) by {
      StringsRoundTrip(rev, ss[..n], rest);
    }
    assert ReadStringArray(rev, [n as byte] + tail) == Some((StringArrayValue(cut), 1 + |elements|)) by {
      ReadStringArrayCons(rev, n as byte, tail);
    }
    assert [n as byte] + elements + rest == [n as byte] + tail;
  }

  lemma StringArrayRoundTrip(rev: nat, ss: seq<Bytes>, rest: Bytes)
    ensures ReadValue(rev, StringArray, ValueBytes(rev, Some(StringArrayValue(ss))).value + rest)
         == Some((Truncated(rev, StringArrayValue(ss)), |ValueBytes(rev, Some(StringArrayValue(ss))).value|))
  {
    var n := ArrayCount(|ss|);
    var out := [n as byte] + StringElements(rev, ss[..n]);
    EncodesStringArray(rev, ss);
    ReadsStringArray(rev, out + rest);
    ReadsStringElements(rev, ss, rest);
    TruncatedStringArray(rev, ss);
  }

  /**
   * Round trip: every value WriteValue accepts reads back, from the bytes
   * written and whatever follows them, as what the revision can carry, and
   * the read consumes exactly the bytes written.
   */
  lemma ValueRoundTrip(rev: nat, v: Value, rest: Bytes)
    requires ValueBytes(rev, Some(v)).Success?
    ensures ReadValue(rev, v.Type(), ValueBytes(rev, Some(v)).value + rest)
         == Some((Truncated(rev, v), |ValueBytes(rev, Some(v)).value|))
  {
    match v
    case StringValue(_) => StringLikeRoundTrip(rev, v, rest);
    case RawValue(_) => StringLikeRoundTrip(rev, v, rest);
    case RpcValue(_) => StringLikeRoundTrip(rev, v, rest);
    case BooleanArrayValue(b) => BooleanArrayRoundTrip(rev, b, rest);
    case DoubleArrayValue(ds) => DoubleArrayRoundTrip(rev, ds, rest);
    case StringArrayValue(ss) => StringArrayRoundTrip(rev, ss, rest);
    case DoubleValue(bits) =>
      var bs := BeDouble(bits) + rest;
      assert bs[..8] == BeDouble(bits);
    case BooleanValue(_) =>
  }

  /** A value the revision carries in full (no array over 255, no string over 65535 below 3.0) reads back unchanged. */
  lemma ValueRoundTripExact(rev: nat, v: Value)
    requires ValueBytes(rev, Some(v)).Success?
    requires Truncated(rev, v) == v
    ensures ReadValue(rev, v.Type(), ValueBytes(rev, Some(v)).value)
         == Some((v, ValueSize(rev, Some(v))))
  {
    ValueRoundTrip(rev, v, []);
    assert ValueBytes(rev, Some(v)).value + [] == ValueBytes(rev, Some(v)).value;
    ValueSizeIsLength(rev, Some(v));
  }
}

=== FILE: wire_encoder.dfy ===
/**
 * The NetworkTables wire encoder (WireEncoder): fixed-width big-endian
 * integers, unsigned LEB128, one-byte type tags, revision-dependent strings
 * and typed values. Each write is a pure function from the protocol revision
 * and its argument to the bytes it appends (or the error it raises); the
 * stateful encoder, with its sticky error, is built on top of them.
 */
module WireEncoder {
  import opened Wrappers
  import opened Values
  import opened Arithmetic

  /** The largest element count an array value can carry: the count is one byte. */
  const MaxArrayCount: nat := 0xff
  /** The largest string length a revision 2.0 prefix can carry: the prefix is 16 bits. */
  const MaxRev2StringLength: nat := 0xffff

  datatype EncodeError =
    | NullValue            // WriteValue(null)
    | UnrecognizedType     // WriteType(Unassigned), WriteValue of an empty value
    | RawUnsupported       // a Raw type or value below revision 3.0
    | RpcUnsupported       // an Rpc type or value below revision 3.0

  function Pow128(n: nat): (r: nat)
    ensures r >= 1
  {
    if n == 0 then 1 else 0x80 * Pow128(n - 1)
  }

  /** The number a byte sequence denotes when read big-endian. */
  function BigEndianValue(bs: Bytes): nat {
    if |bs| == 0 then 0 else BigEndianValue(bs[..|bs| - 1]) * 0x100 + bs[|bs| - 1] as nat
  }

  function Pow256(n: nat): (r: nat)
    ensures r >= 1
  {
    if n == 0 then 1 else Pow256(n - 1) * 0x100
  }

  /** The low `n` base-256 digits of `x`, most significant first. */
  function Digits(x: nat, n: nat): (r: Bytes)
    ensures |r| == n
  {
    if n == 0 then [] else Digits(x / 0x100, n - 1) + [(x % 0x100) as byte]
  }

  /** Reading the low `n` digits back gives exactly `x mod 256^n`. */
  lemma {:induction false} DigitsKeepLowBits(x: nat, n: nat)
    ensures BigEndianValue(Digits(x, n)) == x % Pow256(n)
  {
    if n > 0 {
      var r := Digits(x, n);
      assert r[..n - 1] == Digits(x / 0x100, n - 1);
      DigitsKeepLowBits(x / 0x100, n - 1);
      ModSplit(x, 0x100, Pow256(n - 1));
    }
  }

  lemma TwoDigits(x: nat)
    ensures Digits(x, 2) == [(x / 0x100 % 0x100) as byte, (x % 0x100) as byte]
  {
    assert Digits(x / 0x100, 1) == [(x / 0x100 % 0x100) as byte];
  }

  lemma FourDigits(x: nat)
    ensures Digits(x, 4) == Digits(x / 0x100 / 0x100, 2) + Digits(x, 2)
  {
    var x1 := x / 0x100;
    assert Digits(x, 4) == Digits(x1, 3) + [(x % 0x100) as byte];
    assert Digits(x1, 3) == Digits(x1 / 0x100, 2) + [(x1 % 0x100) as byte];
    TwoDigits(x);
  }

  lemma EightDigits(x: nat)
    ensures Digits(x, 8) == Digits(x / 0x100 / 0x100 / 0x100 / 0x100, 4) + Digits(x, 4)
  {
    var x1 := x / 0x100;
    var x2 := x1 / 0x100;
    var x3 := x2 / 0x100;
    assert Digits(x, 8) == Digits(x1, 7) + [(x % 0x100) as byte];
    assert Digits(x1, 7) == Digits(x2, 6) + [(x1 % 0x100) as byte];
    assert Digits(x2, 6) == Digits(x3, 5) + [(x2 % 0x100) as byte];
    assert Digits(x3, 5) == Digits(x3 / 0x100, 4) + [(x3 % 0x100) as byte];
    assert Digits(x, 4) == Digits(x1, 3) + [(x % 0x100) as byte];
    assert Digits(x1, 3) == Digits(x2, 2) + [(x1 % 0x100) as byte];
    assert Digits(x2, 2) == Digits(x3, 1) + [(x2 % 0x100) as byte];
    assert Digits(x3, 1) == Digits(x3 / 0x100, 0) + [(x3 % 0x100) as byte];
  }

  /** Write8: one byte, the low 8 bits of the argument. */
  function Be8(x: nat): (r: Bytes)
    ensures |r| == 1 && BigEndianValue(r) == x % 0x100
  {
    [(x % 0x100) as byte]
  }

  /** Write16: two bytes, big-endian, the low 16 bits of the argument. */
  function Be16(x: nat): (r: Bytes)
    ensures |r| == 2 && BigEndianValue(r) == x % 0x1_0000
  {
    TwoDigits(x);
    DigitsKeepLowBits(x, 2);
    [(x / 0x100 % 0x100) as byte, (x % 0x100) as byte]
  }

  lemma Be16IsDigits(x: nat)
    ensures Be16(x) == Digits(x, 2)
  {
    TwoDigits(x);
  }

  /** Write32: four bytes, big-endian, the low 32 bits of the argument. */
  function Be32(x: nat): (r: Bytes)
    ensures |r| == 4 && BigEndianValue(r) == x % 0x1_0000_0000
  {
    Be16IsDigits(x / 0x100 / 0x100);
    Be16IsDigits(x);
    FourDigits(x);
    DigitsKeepLowBits(x, 4);
    Be16(x / 0x100 / 0x100) + Be16(x)
  }

  lemma Be32IsDigits(x: nat)
    ensures Be32(x) == Digits(x, 4)
  {
    Be16IsDigits(x / 0x100 / 0x100);
    Be16IsDigits(x);
    FourDigits(x);
  }

  /** The two 32-bit halves of a 64-bit pattern are its eight digits. */
  lemma DoubleHalves(bits: nat)
    ensures Be32(bits / 0x100 / 0x100 / 0x100 / 0x100) + Be32(bits) == Digits(bits, 8)
  {
    Be32IsDigits(bits / 0x100 / 0x100 / 0x100 / 0x100);
    Be32IsDigits(bits);
    EightDigits(bits);
  }

  /** Eight digits of a 64-bit pattern read back as the pattern. */
  lemma DoubleDigitsValue(bits: DoubleBits)
    ensures BigEndianValue(Digits(bits, 8)) == bits
  {
    DigitsKeepLowBits(bits, 8);
    assert Pow256(8) == Uint64Limit;
  }

  /** WriteDouble: the eight bytes of the IEEE-754 pattern, big-endian. */
  function BeDouble(bits: DoubleBits): (r: Bytes)
    ensures |r| == 8 && BigEndianValue(r) == bits
  {
    DoubleHalves(bits);
    DoubleDigitsValue(bits);
    Be32(bits / 0x100 / 0x100 / 0x100 / 0x100) + Be32(bits)
  }

  /** A seven-bit group with the continuation bit set. */
  function ContinuationByte(group: nat): (r: byte)
    requires group < 0x80
    ensures r >= 0x80 && r as nat == group + 0x80
  {
    (group + 0x80) as byte
  }

  /**
   * WriteUleb128: seven bits per byte, least significant group first; every
   * byte except the last has its continuation bit (0x80) set.
   */
  function Uleb128(x: nat): (r: Bytes)
    ensures |r| >= 1
    ensures r[|r| - 1] < 0x80
    ensures forall i :: 0 <= i < |r| - 1 ==> r[i] >= 0x80
    decreases x
  {
    if x < 0x80 then [x as byte]
    else LebCons(ContinuationByte(x % 0x80), Uleb128(x / 0x80))
  }

  /** A continuation byte in front of a LEB128 encoding is again one. */
  function LebCons(b: byte, rest: Bytes): (r: Bytes)
    requires b >= 0x80 && |rest| >= 1 && rest[|rest| - 1] < 0x80
    requires forall i :: 0 <= i < |rest| - 1 ==> rest[i] >= 0x80
    ensures r == [b] + rest
    ensures |r| >= 1 && r[|r| - 1] < 0x80
    ensures forall i :: 0 <= i < |r| - 1 ==> r[i] >= 0x80
  {
    var r := [b] + rest;
    assert forall i :: 1 <= i < |r| ==> r[i] == rest[i - 1];
    r
  }

  /** The number of bytes WriteUleb128 produces (SizeUleb128). */
  function Uleb128Size(x: nat): (r: nat)
    decreases x
  {
    if x < 0x80 then 1 else 1 + Uleb128Size(x / 0x80)
  }

  /**
   * The LEB128 encoding has exactly the size Uleb128Size counts, and that is
   * the fewest 7-bit groups that can hold the number.
   */
  lemma {:induction false} Uleb128SizeIsMinimal(x: nat)
    ensures |Uleb128(x)| == Uleb128Size(x)
    ensures x < Pow128(Uleb128Size(x))
    ensures Uleb128Size(x) > 1 ==> x >= Pow128(Uleb128Size(x) - 1)
    decreases x
  {
    if x >= 0x80 {
      Uleb128SizeIsMinimal(x / 0x80);
    }
  }

  /**
   * WriteType: the one-byte tag of a value type. Unassigned is never
   * writable; Raw and Rpc exist only from revision 3.0 on.
   */
  function TypeTag(rev: nat, t: NtType): (r: Result<byte, EncodeError>)
    ensures r.Failure? <==> t == Unassigned || (rev < Rev3 && (t == Raw || t == Rpc))
    ensures t == Unassigned ==> r == Failure(UnrecognizedType)
  {
    match t
    case Unassigned => Failure(UnrecognizedType)
    case Boolean => Success(0x00)
    case Double => Success(0x01)
    case String => Success(0x02)
    case Raw => if rev < Rev3 then Failure(RawUnsupported) else Success(0x03)
    case BooleanArray => Success(0x10)
    case DoubleArray => Success(0x11)
    case StringArray => Success(0x12)
    case Rpc => if rev < Rev3 then Failure(RpcUnsupported) else Success(0x20)
  }

  function Min(a: nat, b: nat): nat {
    if a <= b then a else b
  }

  /** How many bytes of a string a revision writes: all of them from 3.0 on, at most 65535 before. */
  function StringPayloadLength(rev: nat, len: nat): (r: nat)
    ensures r <= len
    ensures rev >= Rev3 ==> r == len
    ensures rev < Rev3 ==> r <= MaxRev2StringLength && (len <= MaxRev2StringLength ==> r == len)
  {
    if rev < Rev3 then Min(len, MaxRev2StringLength) else len
  }

  /**
   * WriteString: below revision 3.0 a 16-bit big-endian length and at most
   * the first 65535 bytes (a longer string is cut short without an error);
   * from 3.0 on a LEB128 length and every byte.
   */
  function StringBytes(rev: nat, s: Bytes): (r: Bytes)
    ensures var n := StringPayloadLength(rev, |s|);
      && |r| >= n
      && r[|r| - n..] == s[..n]
  {
    var n := StringPayloadLength(rev, |s|);
    if rev < Rev3 then Be16(n) + s[..n] else Uleb128(n) + s
  }

  /** GetStringSize: the encoded size of a string, computed without encoding it. */
  function StringSize(rev: nat, s: Bytes): nat {
    if rev < Rev3 then 2 + Min(|s|, MaxRev2StringLength)
    else Uleb128Size(|s|) + |s|
  }

  lemma StringSizeIsLength(rev: nat, s: Bytes)
    ensures |StringBytes(rev, s)| == StringSize(rev, s)
  {
    Uleb128SizeIsMinimal(|s|);
  }

  /** The element count an array value is written with: arrays are cut to 255 elements. */
  function ArrayCount(len: nat): (r: nat)
    ensures r <= MaxArrayCount && r <= len
    ensures len <= MaxArrayCount ==> r == len
  {
    Min(len, MaxArrayCount)
  }

  function BooleanByte(b: bool): byte {
    if b then 0x01 else 0x00
  }

  function BooleanElements(bs: seq<bool>): (r: Bytes)
    ensures |r| == |bs|
    ensures forall i :: 0 <= i < |bs| ==> r[i] == BooleanByte(bs[i])
  {
    seq(|bs|, i requires 0 <= i < |bs| => BooleanByte(bs[i]))
  }

  function DoubleElements(ds: seq<DoubleBits>): (r: Bytes)
    ensures |r| == 8 * |ds|
  {
    if |ds| == 0 then [] else BeDouble(ds[0]) + DoubleElements(ds[1..])
  }

  function StringElements(rev: nat, ss: seq<Bytes>): Bytes {
    if |ss| == 0 then [] else StringBytes(rev, ss[0]) + StringElements(rev, ss[1..])
  }

  /**
   * WriteValue: the payload of a value (without its type tag). A null value,
   * an empty value, and Raw or Rpc below revision 3.0 fail; arrays carry a
   * one-byte count and at most their first 255 elements.
   */
  function ValueBytes(rev: nat, v: Option<Value>): Result<Bytes, EncodeError> {
    match v
    case None => Failure(NullValue)
    case Some(EmptyValue) => Failure(UnrecognizedType)
    case Some(BooleanValue(b)) => Success([BooleanByte(b)])
    case Some(DoubleValue(bits)) => Success(BeDouble(bits))
    case Some(StringValue(s)) => Success(StringBytes(rev, s))
    case Some(RawValue(raw)) =>
      if rev < Rev3 then Failure(RawUnsupported) else Success(StringBytes(rev, raw))
    case Some(RpcValue(rpc)) =>
      if rev < Rev3 then Failure(RpcUnsupported) else Success(StringBytes(rev, rpc))
    case Some(BooleanArrayValue(bs)) =>
      var n := ArrayCount(|bs|);
      Success([n as byte] + BooleanElements(bs[..n]))
    case Some(DoubleArrayValue(ds)) =>
      var n := ArrayCount(|ds|);
      Success([n as byte] + DoubleElements(ds[..n]))
    case Some(StringArrayValue(ss)) =>
      var n := ArrayCount(|ss|);
      Success([n as byte] + StringElements(rev, ss[..n]))
  }

  function StringsSize(rev: nat, ss: seq<Bytes>): nat {
    if |ss| == 0 then 0 else StringSize(rev, ss[0]) + StringsSize(rev, ss[1..])
  }

  /** GetValueSize: the encoded size of a value, 0 for every value WriteValue rejects. */
  function ValueSize(rev: nat, v: Option<Value>): nat {
    match v
    case None => 0
    case Some(EmptyValue) => 0
    case Some(BooleanValue(_)) => 1
    case Some(DoubleValue(_)) => 8
    case Some(StringValue(s)) => StringSize(rev, s)
    case Some(RawValue(raw)) => if rev < Rev3 then 0 else StringSize(rev, raw)
    case Some(RpcValue(rpc)) => if rev < Rev3 then 0 else StringSize(rev, rpc)
    case Some(BooleanArrayValue(bs)) => 1 + ArrayCount(|bs|)
    case Some(DoubleArrayValue(ds)) => 1 + 8 * ArrayCount(|ds|)
    case Some(StringArrayValue(ss)) => 1 + StringsSize(rev, ss[..ArrayCount(|ss|)])
  }

  lemma {:induction false} StringElementsSize(rev: nat, ss: seq<Bytes>)
    ensures |StringElements(rev, ss)| == StringsSize(rev, ss)
  {
    if |ss| > 0 {
      StringSizeIsLength(rev, ss[0]);
      StringElementsSize(rev, ss[1..]);
    }
  }

  /**
   * GetValueSize agrees with WriteValue: it is the length of the bytes
   * written when the write succeeds, and it is 0 exactly when the write fails.
   */
  lemma ValueSizeIsLength(rev: nat, v: Option<Value>)
    ensures ValueBytes(rev, v).Success? ==> |ValueBytes(rev, v).value| == ValueSize(rev, v)
    ensures ValueBytes(rev, v).Failure? <==> ValueSize(rev, v) == 0
  {
    match v
    case Some(StringValue(s)) => StringSizeIsLength(rev, s);
    case Some(RawValue(raw)) => StringSizeIsLength(rev, raw);
    case Some(RpcValue(rpc)) => StringSizeIsLength(rev, rpc);
    case Some(StringArrayValue(ss)) => StringElementsSize(rev, ss[..ArrayCount(|ss|)]);
    case _ =>
  }

  /** One call on a WireEncoder. */
  datatype Write =
    | Write8(x8: nat)
    | Write16(x16: nat)
    | Write32(x32: nat)
    | WriteDouble(bits: DoubleBits)
    | WriteUleb128(uleb: nat)
    | WriteType(t: NtType)
    | WriteString(s: Bytes)
    | WriteValue(v: Option<Value>)

  /** What a call appends at a given revision, or the error it raises. */
  function Output(rev: nat, w: Write): Result<Bytes, EncodeError> {
    match w
    case Write8(x) => Success(Be8(x))
    case Write16(x) => Success(Be16(x))
    case Write32(x) => Success(Be32(x))
    case WriteDouble(bits) => Success(BeDouble(bits))
    case WriteUleb128(x) => Success(Uleb128(x))
    case WriteType(t) =>
      (match TypeTag(rev, t)
       case Success(tag) => Success([tag])
       case Failure(e) => Failure(e))
    case WriteString(s) => Success(StringBytes(rev, s))
    case WriteValue(v) => ValueBytes(rev, v)
  }

  /** A WireEncoder: its revision, the bytes written so far and its error, if any. */
  datatype Encoder = Encoder(protoRev: nat, buffer: Bytes, error: Option<EncodeError>)

  /** The constructor: an empty buffer and no error. */
  function NewEncoder(rev: nat): (r: Encoder)
    ensures r.protoRev == rev && r.buffer == [] && r.error.None?
  {
    Encoder(rev, [], None)
  }

  /** Reset: empties the buffer and clears the error; the revision is kept. */
  function Reset(e: Encoder): (r: Encoder)
    ensures r.protoRev == e.protoRev && r.buffer == [] && r.error.None?
  {
    e.(buffer := [], error := None)
  }

  /**
   * One call on the encoder. A successful call appends its bytes; a failing
   * call appends nothing and records its error; once an error is recorded,
   * calls change nothing until Reset.
   */
  function Apply(e: Encoder, w: Write): (r: Encoder)
    ensures r.protoRev == e.protoRev
    ensures e.error.Some? ==> r == e
    ensures e.error.None? && Output(e.protoRev, w).Success? ==>
      r.error.None? && r.buffer == e.buffer + Output(e.protoRev, w).value
    ensures e.error.None? && Output(e.protoRev, w).Failure? ==>
      r.buffer == e.buffer && r.error == Some(Output(e.protoRev, w).error)
  {
    if e.error.Some? then e
    else
      match Output(e.protoRev, w)
      case Success(bytes) => e.(buffer := e.buffer + bytes)
      case Failure(err) => e.(error := Some(err))
  }

  /** A sequence of calls, in order. */
  function Run(e: Encoder, ws: seq<Write>): Encoder
    decreases |ws|
  {
    if |ws| == 0 then e else Run(Apply(e, ws[0]), ws[1..])
  }

  /** No call of the sequence fails on its own. */
  predicate AllSucceed(rev: nat, ws: seq<Write>) {
    |ws| == 0 || (Output(rev, ws[0]).Success? && AllSucceed(rev, ws[1..]))
  }

  /** The bytes a sequence of calls appends when none of them fails. */
  function AllOutputs(rev: nat, ws: seq<Write>): Bytes
    requires AllSucceed(rev, ws)
  {
    if |ws| == 0 then [] else Output(rev, ws[0]).value + AllOutputs(rev, ws[1..])
  }

  /** Once an error is recorded, no call changes the encoder: the error stays until Reset. */
  lemma {:induction false} ErrorIsSticky(e: Encoder, ws: seq<Write>)
    requires e.error.Some?
    ensures Run(e, ws) == e
    decreases |ws|
  {
    if |ws| > 0 {
      ErrorIsSticky(Apply(e, ws[0]), ws[1..]);
    }
  }

  /**
   * Calls never take bytes away: the buffer only grows, the revision never
   * changes, and an error, once set, is the one reported at the end.
   */
  lemma {:induction false} RunOnlyAppends(e: Encoder, ws: seq<Write>)
    ensures Run(e, ws).protoRev == e.protoRev
    ensures e.buffer <= Run(e, ws).buffer
    ensures e.error.Some? ==> Run(e, ws).error == e.error
    decreases |ws|
  {
    if |ws| > 0 {
      RunOnlyAppends(Apply(e, ws[0]), ws[1..]);
    }
  }

  /** When every call succeeds the buffer holds their outputs in order and no error is set. */
  lemma {:induction false} RunWithoutErrors(e: Encoder, ws: seq<Write>)
    requires e.error.None?
    requires AllSucceed(e.protoRev, ws)
    ensures Run(e, ws).error.None?
    ensures Run(e, ws).buffer == e.buffer + AllOutputs(e.protoRev, ws)
    decreases |ws|
  {
    if |ws| > 0 {
      var rev := e.protoRev;
      var first := Output(rev, ws[0]).value;
      var e1 := Apply(e, ws[0]);
      assert e1.error.None? && e1.protoRev == rev && e1.buffer == e.buffer + first by {
        assert Output(rev, ws[0]).Success?;
      }
      RunWithoutErrors(e1, ws[1..]);
      assert Run(e, ws) == Run(e1, ws[1..]);
      assert AllOutputs(rev, ws) == first + AllOutputs(rev, ws[1..]);
      assert e.buffer + first + AllOutputs(rev, ws[1..]) == e.buffer + AllOutputs(rev, ws);
    }
  }


}

=== FILE: wire_vectors.dfy ===
/**
 * The byte-level expectations of the WireEncoder unit tests, stated as
 * lemmas about the model. Doubles appear as their IEEE-754 bit patterns:
 * 1.0 is 0x3FF0000000000000, 0.5 is 0x3FE0000000000000, 0.25 is
 * 0x3FD0000000000000.
 */
module WireVectors {
  import opened Wrappers
  import opened Values
  import opened WireEncoder

  const Hello: Bytes := [0x68, 0x65, 0x6c, 0x6c, 0x6f]              // "hello"
  const Goodbye: Bytes := [0x67, 0x6f, 0x6f, 0x64, 0x62, 0x79, 0x65] // "goodbye"
  const Star: byte := 0x2a                                           // '*'
  const LetterX: byte := 0x78                                        // 'x'

  /** 127 stars and an x: 128 bytes. */
  function LongString(): Bytes {
    seq(127, _ => Star) + [LetterX]
  }

  /** 65534 stars and three x: 65537 bytes, two more than a revision 2.0 prefix can count. */
  function BigString(): Bytes {
    seq(65534, _ => Star) + [LetterX, LetterX, LetterX]
  }

  lemma Write8Vector()
    ensures Be8(5) + Be8(0x101) + Be8(0) == [0x05, 0x01, 0x00]
  {
    assert Be8(0x101) == [0x01];
  }

  lemma Write16Vector()
    ensures Be16(5) + Be16(0x10001) + Be16(0x4567) + Be16(0)
         == [0x00, 0x05, 0x00, 0x01, 0x45, 0x67, 0x00, 0x00]
  {
  }

  lemma Write32Vector()
    ensures Be32(5) + Be32(1) + Be32(0xabcd) + Be32(0x12345678) + Be32(0)
         == [0x00, 0x00, 0x00, 0x05, 0x00, 0x00, 0x00, 0x01, 0x00, 0x00, 0xab, 0xcd,
             0x12, 0x34, 0x56, 0x78, 0x00, 0x00, 0x00, 0x00]
  {
    Be32Halves(5, [0x00, 0x00], [0x00, 0x05]);
    Be32Halves(1, [0x00, 0x00], [0x00, 0x01]);
    Be32Halves(0xabcd, [0x00, 0x00], [0xab, 0xcd]);
    Be32Halves(0x12345678, [0x12, 0x34], [0x56, 0x78]);
    Be32Halves(0, [0x00, 0x00], [0x00, 0x00]);
  }

  lemma Uleb128Vectors()
    ensures Uleb128(0) + Uleb128(0x7f) + Uleb128(0x80) == [0x00, 0x7f, 0x80, 0x01]
    ensures Uleb128(65537) == [0x81, 0x80, 0x04]
  {
  }

  lemma TypeTagVectors()
    ensures forall t: NtType :: t != Unassigned ==> TypeTag(Rev3, t).Success?
    ensures [TypeTag(Rev3, Boolean).value, TypeTag(Rev3, Double).value, TypeTag(Rev3, String).value,
             TypeTag(Rev3, Raw).value, TypeTag(Rev3, BooleanArray).value, TypeTag(Rev3, DoubleArray).value,
             TypeTag(Rev3, StringArray).value, TypeTag(Rev3, Rpc).value]
         == [0x00, 0x01, 0x02, 0x03, 0x10, 0x11, 0x12, 0x20]
  {
  }

  /** A failing WriteType appends nothing and records its error; Reset clears it. */
  lemma WriteTypeErrorVectors()
    ensures Run(NewEncoder(Rev2), [WriteType(Unassigned)]) == Encoder(Rev2, [], Some(UnrecognizedType))
    ensures Run(NewEncoder(Rev2), [WriteType(Raw)]) == Encoder(Rev2, [], Some(RawUnsupported))
    ensures Run(NewEncoder(Rev2), [WriteType(Rpc)]) == Encoder(Rev2, [], Some(RpcUnsupported))
    ensures Reset(Run(NewEncoder(Rev3), [WriteType(Unassigned)])).error.None?
    ensures Run(Reset(Run(NewEncoder(Rev3), [WriteType(Unassigned)])), [Write8(0)]).buffer == [0x00]
    ensures Reset(Run(NewEncoder(Rev3), [Write8(0)])).buffer == []
  {
  }

  lemma BooleanVectors(rev: nat)
    ensures Run(NewEncoder(rev), [WriteValue(Some(BooleanValue(true))), WriteValue(Some(BooleanValue(false)))])
         == Encoder(rev, [0x01, 0x00], None)
  {
    var ws := [WriteValue(Some(BooleanValue(true))), WriteValue(Some(BooleanValue(false)))];
    var e1 := Apply(NewEncoder(rev), ws[0]);
    assert e1 == Encoder(rev, [0x01], None);
    assert Apply(e1, ws[1]) == Encoder(rev, [0x01, 0x00], None);
    assert ws[1..][1..] == [];
  }

  /** A pattern with only its top 16 bits set is those two bytes and six zero bytes. */
  lemma HighDoubleBytes(h: nat)
    requires h < 0x1_0000
    ensures h * 0x1_0000_0000_0000 < Uint64Limit
    ensures BeDouble(h * 0x1_0000_0000_0000) == Be16(h) + [0x00, 0x00, 0x00, 0x00, 0x00, 0x00]
  {
    var bits := h * 0x1_0000_0000_0000;
    var high := bits / 0x100 / 0x100 / 0x100 / 0x100;
    assert high == h * 0x1_0000;
    assert high / 0x100 / 0x100 == h;
    assert Be32(high) == Be16(h) + [0x00, 0x00];
    assert bits / 0x100 / 0x100 == h * 0x1_0000_0000;
    assert Be32(bits) == [0x00, 0x00, 0x00, 0x00];
  }

  /** The same, for a pattern whose top two bytes are given. */
  lemma HighDoubleLiteral(bits: DoubleBits, h: nat, a: byte, b: byte)
    requires h < 0x1_0000 && bits == h * 0x1_0000_0000_0000
    requires Be16(h) == [a, b]
    ensures BeDouble(bits) == [a, b, 0x00, 0x00, 0x00, 0x00, 0x00, 0x00]
  {
    HighDoubleBytes(h);
  }

  /** 1.0 is written as its eight pattern bytes, most significant first. */
  lemma DoubleVector(rev: nat)
    ensures ValueBytes(rev, Some(DoubleValue(0x3FF0000000000000)))
         == Success([0x3f, 0xf0, 0x00, 0x00, 0x00, 0x00, 0x00, 0x00])
  {
    HighDoubleBytes(0x3ff0);
    var bits: DoubleBits := 0x3FF0000000000000;
    assert bits == 0x3ff0 * 0x1_0000_0000_0000;
    assert Be16(0x3ff0) == [0x3f, 0xf0];
    assert BeDouble(bits) == [0x3f, 0xf0] + [0x00, 0x00, 0x00, 0x00, 0x00, 0x00];
    assert BeDouble(bits) == [0x3f, 0xf0, 0x00, 0x00, 0x00, 0x00, 0x00, 0x00];
  }

  /** Write32 is the Write16 of the upper half followed by the Write16 of the lower half. */
  lemma Be32Halves(x: nat, hi: Bytes, lo: Bytes)
    requires Be16(x / 0x100 / 0x100) == hi && Be16(x) == lo
    ensures Be32(x) == hi + lo
  {
  }

  /** WriteDouble is the Write32 of the upper half followed by the Write32 of the lower half. */
  lemma BeDoubleHalves(bits: DoubleBits, hi: Bytes, lo: Bytes)
    requires Be32(bits / 0x100 / 0x100 / 0x100 / 0x100) == hi && Be32(bits) == lo
    ensures BeDouble(bits) == hi + lo
  {
  }

  lemma ZeroDoubleBytes()
    ensures BeDouble(0) == [0x00, 0x00, 0x00, 0x00, 0x00, 0x00, 0x00, 0x00]
  {
    Be32Halves(0, [0x00, 0x00], [0x00, 0x00]);
    BeDoubleHalves(0, [0x00, 0x00, 0x00, 0x00], [0x00, 0x00, 0x00, 0x00]);
  }

  lemma Double230000Bytes()
    ensures BeDouble(0x410C138000000000) == [0x41, 0x0c, 0x13, 0x80, 0x00, 0x00, 0x00, 0x00]
  {
    Be32Halves(0x410C1380, [0x41, 0x0c], [0x13, 0x80]);
    Be32Halves(0x410C138000000000, [0x00, 0x00], [0x00, 0x00]);
    BeDoubleHalves(0x410C138000000000, [0x41, 0x0c, 0x13, 0x80], [0x00, 0x00, 0x00, 0x00]);
  }

  lemma InfinityBytes()
    ensures BeDouble(0x7FF0000000000000) == [0x7f, 0xf0, 0x00, 0x00, 0x00, 0x00, 0x00, 0x00]
  {
    HighDoubleLiteral(0x7FF0000000000000, 0x7ff0, 0x7f, 0xf0);
  }

  lemma LeastNormalBytes()
    ensures BeDouble(0x0010000000000000) == [0x00, 0x10, 0x00, 0x00, 0x00, 0x00, 0x00, 0x00]
  {
    HighDoubleLiteral(0x0010000000000000, 0x0010, 0x00, 0x10);
  }

  lemma MaxDoubleBytes()
    ensures BeDouble(0x7FEFFFFFFFFFFFFF) == [0x7f, 0xef, 0xff, 0xff, 0xff, 0xff, 0xff, 0xff]
  {
    Be32Halves(0x7FEFFFFF, [0x7f, 0xef], [0xff, 0xff]);
    Be32Halves(0x7FEFFFFFFFFFFFFF, [0xff, 0xff], [0xff, 0xff]);
    BeDoubleHalves(0x7FEFFFFFFFFFFFFF, [0x7f, 0xef, 0xff, 0xff], [0xff, 0xff, 0xff, 0xff]);
  }

  /** The patterns of 0.0, 2.3e5, +infinity, the least normal double and the greatest double. */
  lemma WriteDoubleVectors()
    ensures BeDouble(0) == [0x00, 0x00, 0x00, 0x00, 0x00, 0x00, 0x00, 0x00]
    ensures BeDouble(0x410C138000000000) == [0x41, 0x0c, 0x13, 0x80, 0x00, 0x00, 0x00, 0x00]
    ensures BeDouble(0x7FF0000000000000) == [0x7f, 0xf0, 0x00, 0x00, 0x00, 0x00, 0x00, 0x00]
    ensures BeDouble(0x0010000000000000) == [0x00, 0x10, 0x00, 0x00, 0x00, 0x00, 0x00, 0x00]
    ensures BeDouble(0x7FEFFFFFFFFFFFFF) == [0x7f, 0xef, 0xff, 0xff, 0xff, 0xff, 0xff, 0xff]
  {
    ZeroDoubleBytes();
    Double230000Bytes();
    MaxDoubleBytes();
    InfinityBytes();
    LeastNormalBytes();
  }

  /** Below 3.0 a string carries a 16-bit length prefix; a string within the limit is written whole. */
  lemma Rev2ShortString(s: Bytes)
    requires |s| <= MaxRev2StringLength
    ensures StringBytes(Rev2, s) == Be16(|s|) + s
  {
    assert s[..|s|] == s;
  }

  /** Below 3.0 a string longer than 65535 bytes keeps a 0xffff prefix and its first 65535 bytes. */
  lemma Rev2LongString(s: Bytes)
    requires |s| > MaxRev2StringLength
    ensures StringBytes(Rev2, s) == [0xff, 0xff] + s[..MaxRev2StringLength]
  {
  }

  /** From 3.0 on a string carries a LEB128 length prefix and every byte. */
  lemma Rev3String(s: Bytes)
    ensures StringBytes(Rev3, s) == Uleb128(|s|) + s
  {
  }

  lemma StringValueVectors()
    ensures ValueBytes(Rev2, Some(StringValue(Hello))) == Success([0x00, 0x05] + Hello)
    ensures ValueBytes(Rev3, Some(StringValue(Hello))) == Success([0x05] + Hello)
    ensures ValueBytes(Rev3, Some(RawValue(Hello))) == Success([0x05] + Hello)
    ensures ValueBytes(Rev3, Some(RpcValue(Hello))) == Success([0x05] + Hello)
  {
    Rev2ShortString(Hello);
    Rev3String(Hello);
  }

  lemma BooleanArrayVector(rev: nat)
    ensures ValueBytes(rev, Some(BooleanArrayValue([false, true, false]))) == Success([0x03, 0x00, 0x01, 0x00])
  {
    var bs := [false, true, false];
    assert bs[..3] == bs;
    var r := BooleanElements(bs);
    assert r[0] == 0x00 && r[1] == 0x01 && r[2] == 0x00;
    assert r == [0x00, 0x01, 0x00];
    assert ArrayCount(3) == 3;
    assert ValueBytes(rev, Some(BooleanArrayValue(bs))) == Success([3 as byte] + BooleanElements(bs[..3]));
    assert [3 as byte] + r == [0x03, 0x00, 0x01, 0x00];
    assert ValueBytes(rev, Some(BooleanArrayValue(bs))).value == [0x03, 0x00, 0x01, 0x00];
  }

  lemma TwoDoubleElements(x: DoubleBits, y: DoubleBits)
    ensures DoubleElements([x, y]) == BeDouble(x) + BeDouble(y)
  {
    assert [x, y][1..] == [y];
    assert [y][1..] == [];
    assert DoubleElements([y]) == BeDouble(y) + [];
    assert BeDouble(y) + [] == BeDouble(y);
  }

  lemma DoubleArrayElements()
    ensures DoubleElements([0x3FE0000000000000, 0x3FD0000000000000])
         == [0x3f, 0xe0, 0x00, 0x00, 0x00, 0x00, 0x00, 0x00,
             0x3f, 0xd0, 0x00, 0x00, 0x00, 0x00, 0x00, 0x00]
  {
    HighDoubleLiteral(0x3FE0000000000000, 0x3fe0, 0x3f, 0xe0);
    HighDoubleLiteral(0x3FD0000000000000, 0x3fd0, 0x3f, 0xd0);
    TwoDoubleElements(0x3FE0000000000000, 0x3FD0000000000000);
  }

  /** The array [0.5, 0.25] is within the limit: its count byte and both elements. */
  lemma HalfQuarterPayload(rev: nat)
    ensures ValueBytes(rev, Some(DoubleArrayValue([0x3FE0000000000000, 0x3FD0000000000000])))
         == Success([2 as byte] + DoubleElements([0x3FE0000000000000, 0x3FD0000000000000]))
  {
    var ds: seq<DoubleBits> := [0x3FE0000000000000, 0x3FD0000000000000];
    assert ArrayCount(2) == 2;
    assert ds[..2] == ds;
  }

  lemma DoubleArrayVector(rev: nat)
    ensures ValueBytes(rev, Some(DoubleArrayValue([0x3FE0000000000000, 0x3FD0000000000000])))
         == Success([0x02, 0x3f, 0xe0, 0x00, 0x00, 0x00, 0x00, 0x00, 0x00,
                           0x3f, 0xd0, 0x00, 0x00, 0x00, 0x00, 0x00, 0x00])
  {
    HalfQuarterPayload(rev);
    DoubleArrayElements();
    assert [2 as byte] + DoubleElements([0x3FE0000000000000, 0x3FD0000000000000])
        == [0x02, 0x3f, 0xe0, 0x00, 0x00, 0x00, 0x00, 0x00, 0x00,
                  0x3f, 0xd0, 0x00, 0x00, 0x00, 0x00, 0x00, 0x00];
  }

  lemma TwoStringElements(rev: nat, a: Bytes, b: Bytes)
    ensures StringElements(rev, [a, b]) == StringBytes(rev, a) + StringBytes(rev, b)
    ensures StringsSize(rev, [a, b]) == StringSize(rev, a) + StringSize(rev, b)
  {
    assert [a, b][1..] == [b];
    assert [b][1..] == [];
    assert StringElements(rev, [b]) == StringBytes(rev, b) + [];
    assert StringBytes(rev, b) + [] == StringBytes(rev, b);
    assert StringsSize(rev, [b]) == StringSize(rev, b) + StringsSize(rev, []);
  }

  /** The array ["hello", "goodbye"] is within the limit: its count byte and both elements. */
  lemma HelloGoodbyePayload(rev: nat)
    ensures ValueBytes(rev, Some(StringArrayValue([Hello, Goodbye])))
         == Success([2 as byte] + StringElements(rev, [Hello, Goodbye]))
  {
    assert ArrayCount(2) == 2;
    assert [Hello, Goodbye][..2] == [Hello, Goodbye];
  }

  lemma HelloGoodbyeRev2Elements()
    ensures StringElements(Rev2, [Hello, Goodbye]) == [0x00, 0x05] + Hello + ([0x00, 0x07] + Goodbye)
  {
    TwoStringElements(Rev2, Hello, Goodbye);
    Rev2ShortString(Hello);
    Rev2ShortString(Goodbye);
    assert Be16(5) == [0x00, 0x05];
    assert Be16(7) == [0x00, 0x07];
  }

  lemma StringArrayRev2Vector()
    ensures ValueBytes(Rev2, Some(StringArrayValue([Hello, Goodbye])))
         == Success([0x02] + [0x00, 0x05] + Hello + [0x00, 0x07] + Goodbye)
  {
    HelloGoodbyePayload(Rev2);
    HelloGoodbyeRev2Elements();
    assert [2 as byte] + ([0x00, 0x05] + Hello + ([0x00, 0x07] + Goodbye))
        == [0x02] + [0x00, 0x05] + Hello + [0x00, 0x07] + Goodbye;
  }

  lemma StringArrayRev3Vector()
    ensures ValueBytes(Rev3, Some(StringArrayValue([Hello, Goodbye])))
         == Success([0x02] + [0x05] + Hello + [0x07] + Goodbye)
  {
    HelloGoodbyePayload(Rev3);
    assert StringElements(Rev3, [Hello, Goodbye]) == [0x05] + Hello + ([0x07] + Goodbye) by {
      TwoStringElements(Rev3, Hello, Goodbye);
      Rev3String(Hello);
      Rev3String(Goodbye);
    }
    assert [2 as byte] + ([0x05] + Hello + ([0x07] + Goodbye))
        == [0x02] + [0x05] + Hello + [0x07] + Goodbye;
  }

  lemma StringArrayVectors()
    ensures ValueBytes(Rev2, Some(StringArrayValue([Hello, Goodbye])))
         == Success([0x02] + [0x00, 0x05] + Hello + [0x00, 0x07] + Goodbye)
    ensures ValueBytes(Rev3, Some(StringArrayValue([Hello, Goodbye])))
         == Success([0x02] + [0x05] + Hello + [0x07] + Goodbye)
  {
    StringArrayRev2Vector();
    StringArrayRev3Vector();
  }

  /** Arrays of 256 elements are written as their first 255, with no error. */
  lemma BigBooleanArrayVector(rev: nat)
    ensures var out := ValueBytes(rev, Some(BooleanArrayValue(seq(256, _ => false))));
      out.Success? && |out.value| == 1 + 255 && out.value[..2] == [0xff, 0x00]
  {
    var bools := seq(256, _ => false);
    assert BooleanElements(bools[..255])[0] == 0x00;
  }

  lemma BigDoubleArrayVector(rev: nat)
    ensures var out := ValueBytes(rev, Some(DoubleArrayValue(seq(256, _ => 0))));
      out.Success? && |out.value| == 1 + 255 * 8 && out.value[..2] == [0xff, 0x00]
  {
    var doubles: seq<DoubleBits> := seq(256, _ => 0);
    var d := DoubleElements(doubles[..255]);
    assert d[..8] == BeDouble(0);
    HighDoubleBytes(0);
  }

  lemma BigStringArrayVector(rev: nat)
    requires rev == Rev2 || rev == Rev3
    ensures var out := ValueBytes(rev, Some(StringArrayValue(seq(256, _ => [0x61]))));
      && out.Success?
      && |out.value| == 1 + 255 * StringSize(rev, [0x61])
      && out.value[..|StringBytes(rev, [0x61])| + 1] == [0xff] + StringBytes(rev, [0x61])
  {
    var strings: seq<Bytes> := seq(256, _ => [0x61]);
    var cut := strings[..255];
    ValueSizeIsLength(rev, Some(StringArrayValue(strings)));
    UniformStringsSize(rev, cut, [0x61]);
    var elems := StringElements(rev, cut);
    assert elems == StringBytes(rev, [0x61]) + StringElements(rev, cut[1..]);
    assert elems[..|StringBytes(rev, [0x61])|] == StringBytes(rev, [0x61]);
  }

  lemma BigStringArrayVectors()
    ensures var out := ValueBytes(Rev2, Some(StringArrayValue(seq(256, _ => [0x61]))));
      out.Success? && |out.value| == 1 + 255 * 3 && out.value[..4] == [0xff, 0x00, 0x01, 0x61]
    ensures var out := ValueBytes(Rev3, Some(StringArrayValue(seq(256, _ => [0x61]))));
      out.Success? && |out.value| == 1 + 255 * 2 && out.value[..3] == [0xff, 0x01, 0x61]
  {
    BigStringArrayVector(Rev2);
    BigStringArrayVector(Rev3);
    Rev2ShortString([0x61]);
    Rev3String([0x61]);
  }

  lemma {:induction false} UniformStringsSize(rev: nat, ss: seq<Bytes>, s: Bytes)
    requires forall i :: 0 <= i < |ss| ==> ss[i] == s
    ensures StringsSize(rev, ss) == |ss| * StringSize(rev, s)
  {
    if |ss| > 0 {
      var k := StringSize(rev, s);
      UniformStringsSize(rev, ss[1..], s);
      assert ss[0] == s;
      assert StringsSize(rev, ss) == k + |ss[1..]| * k;
      assert k + (|ss| - 1) * k == |ss| * k;
    }
  }

  lemma StringRev2Vectors()
    ensures StringBytes(Rev2, Hello) == [0x00, 0x05] + Hello
    ensures var out := StringBytes(Rev2, LongString());
      |out| == 130 && out[..4] == [0x00, 0x80, Star, Star] && out[128] == Star && out[129] == LetterX
    ensures var out := StringBytes(Rev2, BigString());
      |out| == 65537 && out[..4] == [0xff, 0xff, Star, Star] && out[65535] == Star && out[65536] == LetterX
    ensures StringSize(Rev2, Hello) == 7 && StringSize(Rev2, LongString()) == 130
         && StringSize(Rev2, BigString()) == 65537
  {
    Rev2ShortString(Hello);
    var long := LongString();
    Rev2ShortString(long);
    assert long[0] == Star && long[1] == Star && long[126] == Star && long[127] == LetterX;
    var big := BigString();
    Rev2LongString(big);
    assert big[0] == Star && big[1] == Star && big[65533] == Star && big[65534] == LetterX;
  }

  lemma StringRev3Vectors()
    ensures StringBytes(Rev3, Hello) == [0x05] + Hello
    ensures var out := StringBytes(Rev3, LongString());
      |out| == 130 && out[..4] == [0x80, 0x01, Star, Star] && out[128] == Star && out[129] == LetterX
    ensures var out := StringBytes(Rev3, BigString());
      && |out| == 65540 && out[..4] == [0x81, 0x80, 0x04, Star]
      && out[65536] == Star && out[65537] == LetterX && out[65538] == LetterX && out[65539] == LetterX
    ensures StringSize(Rev3, Hello) == 6 && StringSize(Rev3, LongString()) == 130
         && StringSize(Rev3, BigString()) == 65540
  {
    Rev3String(Hello);
    var long := LongString();
    Rev3String(long);
    assert Uleb128(128) == [0x80, 0x01];
    assert long[0] == Star && long[1] == Star && long[126] == Star && long[127] == LetterX;
    var big := BigString();
    Rev3String(big);
    assert Uleb128(65537) == [0x81, 0x80, 0x04];
    assert Uleb128Size(65537) == 3;
    assert big[0] == Star && big[65533] == Star && big[65534] == LetterX && big[65535] == LetterX && big[65536] == LetterX;
  }

  /** Null and empty values, and Raw or Rpc below 3.0, fail and write nothing. */
  lemma ValueErrorVectors(rev: nat)
    requires rev == Rev2 || rev == Rev3
    ensures var e := Run(NewEncoder(rev), [WriteValue(None)]); e.buffer == [] && e.error.Some?
    ensures var e := Run(NewEncoder(rev), [WriteValue(Some(EmptyValue))]); e.buffer == [] && e.error.Some?
    ensures var e := Run(NewEncoder(Rev2), [WriteValue(Some(RawValue(Hello)))]); e.buffer == [] && e.error.Some?
    ensures var e := Run(NewEncoder(Rev2), [WriteValue(Some(RpcValue(Hello)))]); e.buffer == [] && e.error.Some?
  {
  }

  lemma ValueSizeVectors()
    ensures ValueSize(Rev2, None) == 0 && ValueSize(Rev2, Some(EmptyValue)) == 0
    ensures ValueSize(Rev2, Some(StringValue(Hello))) == 7
    ensures ValueSize(Rev2, Some(RawValue(Hello))) == 0 && ValueSize(Rev2, Some(RpcValue(Hello))) == 0
    ensures ValueSize(Rev2, Some(StringArrayValue([Hello, Goodbye]))) == 1 + 7 + 9
    ensures ValueSize(Rev3, Some(StringValue(Hello))) == 6
    ensures ValueSize(Rev3, Some(RawValue(Hello))) == 6 && ValueSize(Rev3, Some(RpcValue(Hello))) == 6
    ensures ValueSize(Rev3, Some(StringArrayValue([Hello, Goodbye]))) == 1 + 6 + 8
    ensures ValueSize(Rev2, Some(BooleanArrayValue(seq(256, _ => false)))) == 1 + 255
    ensures ValueSize(Rev3, Some(DoubleArrayValue(seq(256, _ => 0)))) == 1 + 255 * 8
    ensures ValueSize(Rev3, None) == 0 && ValueSize(Rev3, Some(EmptyValue)) == 0
    ensures ValueSize(Rev2, Some(BooleanValue(true))) == 1 && ValueSize(Rev3, Some(BooleanValue(true))) == 1
    ensures ValueSize(Rev2, Some(DoubleValue(0x3FF0000000000000))) == 8
    ensures ValueSize(Rev3, Some(DoubleValue(0x3FF0000000000000))) == 8
    ensures ValueSize(Rev2, Some(BooleanArrayValue([false, true, false]))) == 1 + 3
    ensures ValueSize(Rev3, Some(BooleanArrayValue([false, true, false]))) == 1 + 3
    ensures ValueSize(Rev2, Some(DoubleArrayValue([0x3FE0000000000000, 0x3FD0000000000000]))) == 1 + 2 * 8
    ensures ValueSize(Rev3, Some(DoubleArrayValue([0x3FE0000000000000, 0x3FD0000000000000]))) == 1 + 2 * 8
    ensures ValueSize(Rev3, Some(BooleanArrayValue(seq(256, _ => false)))) == 1 + 255
    ensures ValueSize(Rev2, Some(DoubleArrayValue(seq(256, _ => 0)))) == 1 + 255 * 8
    ensures ValueSize(Rev2, Some(StringArrayValue(seq(256, _ => [0x61])))) == 1 + 255 * 3
    ensures ValueSize(Rev3, Some(StringArrayValue(seq(256, _ => [0x61])))) == 1 + 255 * 2
  {
    BigStringArrayVectors();
    ValueSizeIsLength(Rev2, Some(StringArrayValue(seq(256, _ => [0x61]))));
    ValueSizeIsLength(Rev3, Some(StringArrayValue(seq(256, _ => [0x61]))));
    assert [Hello, Goodbye][..2] == [Hello, Goodbye];
    TwoStringElements(Rev2, Hello, Goodbye);
    TwoStringElements(Rev3, Hello, Goodbye);
  }
}

=== FILE: wrappers.dfy ===
/** Failure-compatible helper datatypes shared by every module of the model. */
module Wrappers {

  /** A value that may be absent: stands for a C# reference that may be null. */
  datatype Option<+T> = None | Some(value: T) {
    predicate IsFailure() {
      None?
    }

    function PropagateFailure<U>(): Option<U>
      requires None?
    {
      None
    }

    function Extract(): T
      requires Some?
    {
      value
    }
  }

  /** Either a successful value or an error; stands for the source's error strings and exceptions. */
  datatype Result<+R, +E> = Success(value: R) | Failure(error: E) {
    predicate IsFailure() {
      Failure?
    }

    function PropagateFailure<U>(): Result<U, E>
      requires Failure?
    {
      Failure(error)
    }

    function Extract(): R
      requires Success?
    {
      value
    }
  }
}
